=== FILE: README.md ===
# Ozon seller crawler — a Dafny model

This project models the crawl engine of the Ozon parser: a Django service that
walks the product listing of an Ozon seller, finds the products it has not stored
yet, reads each product page, validates the record with `ProductSerializer` and
stores it. Around that engine it models three smaller pieces. The first is the
`POST /api/v1/products/` view that starts a crawl. The second is the bot's
"product list" reply. The third is the `Product` model's constraints and default
order.

The browser is an oracle `Site = Fetch -> Document`. A `Fetch` is an address and
the CSS marker the crawler waits for. A `Document` holds the page source (for the
page-count search), the listing's item links, and what the field extractors
return on a product page. The page walk reads a `Listing`: the page count and the ids of
each listing page, which `Discovery.SiteListing` obtains from the browser through the
parsers. Each run records what it did as a sequence of events:
fetches, saves, messages sent, closing the driver and bulk inserts. The table is
a sequence of rows in insertion order. The crawl moment (`datetime.now()`) and the
URL check of `image_url` are parameters.

Files (one module each):

- `wrappers.dfy`: `Option` and `Result`.
- `text.dfy`: digits and decimal text, Python's blank set, `str.strip`,
  `str.split()`, `'\n'.join` and splitting on a character.
- `numbers.dfy`: Python's `int()` of a string, and the `\.0*\s*$` clean-up that the
  framework's integer fields apply first.
- `extraction.dfy`: the page-count token, the id in a listing link, the price
  clean-up and the product URL (`core/utils.py`).
- `browser.dfy`: the page oracle.
- `discovery.dfy`: `extend_with_unique`, the per-page filter and the page walk of
  `get_new_products`.
- `records.dfy`: `Product` and `ProductSerializer`'s validation.
- `storage.dfy`: the table, saving a record, and the default order.
- `ingestion.dfy`: the two ingestion loops. One is `parse_ozon_seller` in
  `core/utils.py`, which stops at the first invalid record. The other is the
  background task in `core/tasks.py`, which skips invalid records and inserts once
  at the end.
- `bot.dfy`: `get_latest_products`.
- `api.dfy`: `ProductViewSet.create` and `QueryForm`.

## Model

| member | source | states |
|---|---|---|
| Discovery.ExtendWithUnique | ozon_parser/core/utils.py:31-44 | The result extends `list1` (it is a prefix) by at most `len(list2)` elements. |
| Discovery.ExtendWithUniqueIsFirstOccurrences | ozon_parser/core/utils.py:31-44 | The merge equals `list1` followed by the first occurrences, in order, of those `list2` elements that `list1` does not hold. This is proved against an independent definition. |
| Discovery.ExtendWithUniqueProperties | ozon_parser/core/utils.py:31-44 | `list1` is a prefix of the result. An element is in the result iff it is in either list. A duplicate-free `list1` gives a duplicate-free result. |
| Discovery.Dedup | ozon_parser/core/utils.py:41-43 | Reference for "first occurrences": duplicate-free, with exactly the elements of its input. |
| Discovery.NewOnPageMembers | ozon_parser/core/utils.py:167 | An id survives the page filter iff it is on the page and not stored. |
| Discovery.NewOnPageCounts | ozon_parser/core/utils.py:167 | Every stored id is removed completely. Every other id keeps all its occurrences on the page, so repeats within a page are not removed. |
| Discovery.NewOnPageAppend | ozon_parser/core/utils.py:167 | Filtering a concatenation filters each part in place, so markup order survives. |
| Discovery.NewOnPageNoDup | ozon_parser/core/utils.py:167 | Filtering a page without repeats gives a list without repeats. |
| Discovery.IdsOfLinks | ozon_parser/core/utils.py:155-166 | The ids come out in card order, one per link, each being that link's extracted id. The list is absent exactly when some link has no id (the comprehension raises there). |
| Discovery.Take | ozon_parser/core/utils.py:195 | Python's `s[:n]`: a prefix of `s`, of length `min(n, len(s))` for `n >= 0`. |
| Discovery.FetchLogPages | ozon_parser/core/utils.py:187-202 | A walk that ends at page L fetches listing page k iff 1 <= k <= L. It fetches nothing twice: the probe is not a listing fetch, and the `?page=k` address of a page reads back as k. |
| Discovery.Discover | ozon_parser/core/utils.py:170-209 | The walk fetches the probe, then listing pages in ascending order, never past page N (or page 1). It fails with no page count exactly when the listing has none (through `Discovery.SiteListing`, when the probe page has no `"totalPages":` token), and then fetches nothing else. A failure on a listing names a page whose links cannot be read. |
| Discovery.WalkPages | ozon_parser/core/utils.py:197-209 | The loop over pages 2..N stops at a page between its start and N. It fails only at a page whose listing cannot be read. |
| Discovery.WalkPagesSafe | ozon_parser/core/utils.py:197-209 | The loop never adds a stored id, never returns more than `products_count` ids, and keeps a duplicate-free running list duplicate-free. |
| Discovery.DiscoverSafe | ozon_parser/core/utils.py:185-209 | For `products_count >= 0`, a successful walk returns no stored id and at most `products_count` ids. It returns no id twice whenever page 1's unseen list has no repeats. |
| Discovery.MergedGrows | ozon_parser/core/utils.py:197-203 | Merging more pages only appends to the merged list. |
| Discovery.WalkPagesTakesMerged | ozon_parser/core/utils.py:197-209 | From page `k` on, the loop returns the first `products_count` ids of the full merge of all pages. |
| Discovery.DiscoverTakesMerged | ozon_parser/core/utils.py:185-209 | When all pages can be read, the answer is the first `products_count` ids of "page 1 filtered, then pages 2..N filtered and merged by `extend_with_unique`". The early stop changes only which pages are fetched, never the answer. |
| Discovery.WalkPagesStopsAtFill | ozon_parser/core/utils.py:207-209 | The loop stops before page N only at a page where the merged list has reached `products_count`. |
| Discovery.WalkPagesShortBefore | ozon_parser/core/utils.py:197-208 | Every page before the last one fetched left the merged list short of `products_count`. |
| Discovery.DiscoverStopsEarly | ozon_parser/core/utils.py:187-209 | After the probe, the walk fetches pages 1..L in order, as `url` then `url + '?page=k'`. L is the first page at which the merged list reaches `products_count`, or N when no page does. |
| Discovery.ShortCircuit | ozon_parser/core/utils.py:187-195 | When page 1 alone has at least `products_count` unseen ids, only the probe and the bare URL are fetched, and the answer is its first `products_count` unseen ids. `products_count = 0` gives `[]`. |
| Extraction.PageCountSearch | ozon_parser/core/utils.py:126-130 | The search finds the leftmost `"totalPages":` followed by a digit, or reports that there is none. |
| Extraction.CountPages | ozon_parser/core/utils.py:125-134 | The result is absent iff no `"totalPages":` is followed by a digit. Otherwise it is the value of the digit run after the first such occurrence. |
| Extraction.IdSearch | ozon_parser/core/utils.py:157-160 | The search finds the leftmost position where `(\d+)/` matches, or reports that there is none. |
| Extraction.ProductIdFromHref | ozon_parser/core/utils.py:156-161 | The result is absent iff no run of digits is followed by `/`. Otherwise it is the value of the first maximal such run, which starts after a non-digit or at the start. |
| Extraction.LeftmostIdStartsRun | ozon_parser/core/utils.py:157-160 | The leftmost match of `(\d+)/` begins a maximal run of digits. |
| Extraction.ProductIdFromFirst | ozon_parser/core/utils.py:157-160 | The extractor answers with the value at the leftmost match. |
| Extraction.FirstIdAfterPrefix | ozon_parser/core/utils.py:157-160 | After a digit-free prefix, the extractor reads exactly the digits before the next `/`. |
| Extraction.ProductUrlIdRoundTrip | ozon_parser/core/utils.py:103-112 | Round trip: the link extractor reads `n` back from `get_ozon_product_url(n) + '/' + anything`. |
| Extraction.ProductUrlInjective | ozon_parser/core/utils.py:112 | Different ids give different product URLs. |
| Extraction.CleanPrice | ozon_parser/core/utils.py:233-235 | The price text has no blank. It is `''` when the text has at most one token. Otherwise the result followed by the last token is the text with every blank removed, so it holds every token but the last, glued in order. |
| Extraction.CleanPriceKeepsAllButLast | ozon_parser/core/utils.py:233-235 | The cleaned price is the concatenation of all tokens but the last. |
| Extraction.CleanPriceDropsCurrency | ozon_parser/core/utils.py:233-235 | An amount, one blank and a currency word give the amount with its blanks removed: only the currency word is dropped. |
| Text.Split | ozon_parser/core/utils.py:234 | Every token of `str.split()` is non-empty and free of blanks. |
| Text.SplitOfWord | ozon_parser/core/utils.py:234 | A non-empty blank-free text splits into itself alone. |
| Text.SplitAtBlank | ozon_parser/core/utils.py:234 | Splitting at any blank gives the tokens before it, then those after it. With `Text.SplitOfWord`, this fixes the tokens of every text as its maximal blank-free runs, in order. |
| Text.SplitWordCons | ozon_parser/core/utils.py:234 | A word followed by nothing or by a blank is the first token, and the rest splits as it would alone. |
| Text.SplitBlankCons | ozon_parser/core/utils.py:234 | A leading blank changes no token. |
| Text.SplitKeepsEveryNonBlank | ozon_parser/core/utils.py:234 | The tokens, glued together, are the text with its blanks removed. |
| Text.SplitEmptyIffBlank | ozon_parser/core/utils.py:234 | `str.split()` gives no token iff the text is blank. |
| Text.NatToDecimal | ozon_parser/core/utils.py:112 | `str(n)` is one or more digits, with a leading zero only for 0. |
| Text.IntToDecimal | ozon_parser/core/utils.py:112 | `str(i)` starts with a digit iff `i >= 0`, and is all digits then. |
| Text.DecimalRoundTrip | ozon_parser/core/utils.py:112 | The digits of `str(n)` read back as `n`. |
| Text.IntToDecimalInjective | ozon_parser/core/utils.py:112 | Different integers have different decimal texts. |
| Text.SplitOnJoin | ozon_parser/bot/handlers.py:27 | Splitting `'\n'.join(xs)` on newlines gives back `xs` when no item holds a newline. |
| Text.Strip | ozon_parser/api/v1/serializers.py:6-18 | The text fields' trimming removes exactly the leading and trailing blanks. What is left starts and ends with a non-blank. |
| Numbers.DropDecimalTail | ozon_parser/api/v1/forms.py:7 | The clean-up cuts a prefix. It changes the text exactly when `\.0*\s*$` matches, and then cuts at the match. |
| Numbers.PyInt | ozon_parser/api/v1/views.py:79 | `int()` accepts only blanks, an optional sign and at least one digit, so a text with a `.` is refused. |
| Numbers.PyIntRoundTrip | ozon_parser/api/v1/views.py:79 | `int(str(i)) == i`. |
| Records.TextChecks | ozon_parser/products/models.py:7-21 | A trimmed text passes iff it fits the column length and holds no NUL. |
| Records.CleanText | ozon_parser/products/models.py:7-21 | An accepted value is the trimmed text, fits its column, and is non-empty on a required field. A value is absent only on an optional field given nothing or `None`. A refusal names at least one error. |
| Records.CleanUrl | ozon_parser/products/models.py:15 | An accepted `image_url` is non-empty, at most 200 characters and a URL. |
| Records.CleanTextOfText | ozon_parser/products/models.py:7-21 | On any text input, a `CharField`/`TextField` accepts iff the stripped text is non-empty or the field is optional, and a non-empty stripped text also fits `max_length` and holds no NUL. An accepted value is that stripped text. A moment is refused. |
| Records.CleanUrlOfText | ozon_parser/products/models.py:15 | `image_url` accepts a text iff, once stripped, it is non-empty, at most 200 characters, holds no NUL and is a URL, and keeps the stripped text. A missing value, `None` and a moment are refused. |
| Records.IntChecks | ozon_parser/products/models.py:8-22 | An integer passes iff it fits the `INT` column and, for `ozon_id`, is not stored. |
| Records.CleanInt | ozon_parser/products/models.py:8-22 | A missing value, `None` and a moment are refused, since both fields are required. An int is accepted iff it fits the column and is not stored, and is kept as it is. An accepted value always fits and is new, and a refusal names at least one error. |
| Records.CleanIntOfText | ozon_parser/products/models.py:8-22 | A text is accepted iff it is at most 1000 characters and, once its trailing `.0` is cut, `int()` reads it as an int that fits the column and is not stored. It is then read as that int. |
| Records.CleanIntOfDecimal | ozon_parser/core/utils.py:290 | The printed form of an int that fits the column (the crawler sends the price as such a text) is read back as that int, and is refused only when the value is already stored. |
| Records.ValidateSound | ozon_parser/products/models.py:7-22 | What the serializer accepts meets every `Product` constraint, and its `ozon_id` is not stored. |
| Records.ValidateErrors | ozon_parser/api/v1/serializers.py:11-18 | A refused record names at least one field, only serializer fields, and at least one error for each. |
| Records.ValidateAsData | ozon_parser/api/v1/serializers.py:9-18 | Round trip: a product meeting every constraint, with a new `ozon_id`, is validated from its own fields back into itself. |
| Records.ValidIffConstraints | ozon_parser/api/v1/serializers.py:9-18 | The fields of a product validate back into that same product iff it meets every `Product` constraint and its `ozon_id` is not stored. Raw input with blanks around a text is stripped first, so it can be valid without being such a fixed point (see `Records.CleanTextOfText`). |
| Records.ValidateKeepsId | ozon_parser/products/models.py:22 | The accepted `ozon_id` is the one given. A stored one is refused with a uniqueness error. |
| Records.OnlyFieldsMatter | ozon_parser/api/v1/serializers.py:11-18 | Validation reads only `name`, `price`, `description`, `image_url`, `discount` and `ozon_id`. |
| Records.RequestDateIgnored | ozon_parser/api/v1/serializers.py:11-18 | Passing `request_date`, with any value, gives the same outcome as not passing it. |
| Records.Represent | ozon_parser/api/v1/serializers.py:11-21 | The output holds the five fields other than `ozon_id`. |
| Records.WriteOnlyId | ozon_parser/api/v1/serializers.py:19-21 | `ozon_id` is accepted on input but absent from the output. The output does not depend on it and carries every other field unchanged. |
| Storage.SaveAsWrittenFails | ozon_parser/core/utils.py:306 | `serializer.save()` with no arguments never reaches the database with a `request_date`, so the insert is refused. |
| Storage.Save | ozon_parser/core/utils.py:306 | A save with the crawl moment stores the validated product stamped with that moment. |
| Storage.AppendKeepsUnique | ozon_parser/products/models.py:22 | Adding a validated record keeps `ozon_id` unique in the table. |
| Storage.BeforeTotal | ozon_parser/products/models.py:26 | Any two products are ordered one way or the other by (`name`, `price`). |
| Storage.BeforeTransitive | ozon_parser/products/models.py:26 | The (`name`, `price`) order is transitive. |
| Storage.SortRowsCorrect | ozon_parser/products/models.py:26 | The default order is a permutation of the rows, sorted by name, then price. |
| Ingestion.DetailData | ozon_parser/core/utils.py:286-295 | The input built for a product page carries the id it was fetched for. |
| Ingestion.CheckIgnoresDate | ozon_parser/core/utils.py:286-297 | The crawl moment passed in the input never changes the serializer's verdict. |
| Ingestion.ChecksGuard | ozon_parser/core/utils.py:286-297 | An accepted record carries the id it was fetched for, and that id is not in the table as it stands. |
| Ingestion.SaveEach | ozon_parser/core/utils.py:279-313 | The loop only appends, at most one row per id. It emits two events per saved row plus two more, and ends in status 201 or 400. Corrected program: each record is saved by `Storage.Save`, stamped with the crawl moment (see Findings). |
| Ingestion.SaveEachRows | ozon_parser/core/utils.py:279-307 | The `i`-th new row is the `i`-th id's record, accepted against the table holding every row saved before it, and stamped with the crawl moment. Corrected program: each record is saved by `Storage.Save`, stamped with the crawl moment (see Findings). |
| Ingestion.SaveEachPairs | ozon_parser/core/utils.py:279-307 | Ids are processed in order. Each saved row's page fetch comes right before its save, and so before the next id's fetch. Corrected program: each record is saved by `Storage.Save`, stamped with the crawl moment (see Findings). |
| Ingestion.SaveEachStatus | ozon_parser/core/utils.py:279-313 | The status is 201 iff every id's record was saved. A 400 comes from the first rejected record. Corrected program: each record is saved by `Storage.Save`, stamped with the crawl moment (see Findings). |
| Ingestion.SaveEachFinishes | ozon_parser/core/utils.py:308-313 | After the last save of a complete run, the driver is closed, then one message reports the requested `products_count`, not the number found. Corrected program: each record is saved by `Storage.Save`, stamped with the crawl moment (see Findings). |
| Ingestion.SaveEachStops | ozon_parser/core/utils.py:297-305 | A run that stops does so at the first rejected record. After that record's fetch, one message reports the count saved so far and the errors. Corrected program: each record is saved by `Storage.Save`, stamped with the crawl moment (see Findings). |
| Ingestion.SaveEachMessages | ozon_parser/core/utils.py:297-313 | Exactly one message is sent. A run that stops leaves the driver open. Corrected program: each record is saved by `Storage.Save`, stamped with the crawl moment (see Findings). |
| Ingestion.SaveEachKeepsUnique | ozon_parser/core/utils.py:279-307 | Given a checker that refuses stored ids, the loop keeps `ozon_id` unique, counting rows saved earlier in the same run. Corrected program: each record is saved by `Storage.Save`, stamped with the crawl moment (see Findings). |
| Ingestion.SavedRowIds | ozon_parser/core/utils.py:279-307 | The `i`-th saved row is the product of the `i`-th discovered id. Corrected program: each record is saved by `Storage.Save`, stamped with the crawl moment (see Findings). |
| Ingestion.ParseSeller | ozon_parser/core/utils.py:263-313 | A run whose walk fails changes nothing in the table. Corrected program: each record is saved by `Storage.Save`, stamped with the crawl moment (see Findings). |
| Ingestion.ParseSellerKeepsUnique | ozon_parser/core/utils.py:263-313 | A run keeps `ozon_id` unique in the table. Corrected program: each record is saved by `Storage.Save`, stamped with the crawl moment (see Findings). |
| Ingestion.ParseSellerAppends | ozon_parser/core/utils.py:263-313 | A run only appends: at most `products_count` rows, none for an id stored before the run, each stamped with the crawl moment. Corrected program: each record is saved by `Storage.Save`, stamped with the crawl moment (see Findings). |
| Ingestion.ParseSellerMessages | ozon_parser/core/utils.py:263-313 | A run whose walk fails sends nothing. Any other run sends exactly one message. Corrected program: each record is saved by `Storage.Save`, stamped with the crawl moment (see Findings). |
| Ingestion.SomeRejectedIff | ozon_parser/core/tasks.py:47-56 | Some record was rejected iff fewer records were accepted than ids were given, iff some id's record failed validation. |
| Ingestion.RunTask | ozon_parser/core/tasks.py:39-81 | `saved_products` is exactly the accepted records in discovery order, and `success_products` is their number. `problems` is set iff some record was rejected. The events are the reference run. |
| Ingestion.TaskFetchesInOrder | ozon_parser/core/tasks.py:39-46 | Every id is fetched exactly once, in order, with the task's marker, whether its record is rejected or not. |
| Ingestion.TaskStepsMessages | ozon_parser/core/tasks.py:47-59 | The loop sends one message per rejected record and no other. Accepted and rejected records add up to all ids. |
| Ingestion.TaskMessages | ozon_parser/core/tasks.py:54-81 | The messages are one per rejected record plus exactly one final message. The final one is chosen by `problems`, and reports `products_count` when nothing was rejected. |
| Ingestion.TaskStoresOnceAtEnd | ozon_parser/core/tasks.py:60-67 | Nothing is stored inside the loop. `bulk_create` happens exactly once, after the driver is closed, with exactly the accepted records. |
| Bot.LatestDate | ozon_parser/bot/handlers.py:26 | The latest crawl moment is some row's moment, and no row is later. |
| Bot.RowsOn | ozon_parser/bot/handlers.py:26 | A row is selected iff it is in the table with the given moment. |
| Bot.RowsOnCounts | ozon_parser/bot/handlers.py:26 | The filter keeps every row of the given moment as many times as the table holds it, and no other row. |
| Bot.LatestBatch | ozon_parser/bot/handlers.py:26 | The selection is absent (the handler raises) iff the table is empty. |
| Bot.LatestBatchSelects | ozon_parser/bot/handlers.py:26 | On a non-empty table, the listed rows are non-empty and sorted by (`name`, `price`). They are exactly the rows whose moment is the latest in the table, each as many times as the table holds it. |
| Bot.Entries | ozon_parser/bot/handlers.py:27 | One entry per listed row. |
| Bot.LatestProducts | ozon_parser/bot/handlers.py:26-27 | A message is sent iff the table is not empty. |
| Bot.NoNewlineInLink | ozon_parser/bot/handlers.py:27 | A product URL holds no newline. |
| Bot.ListingLines | ozon_parser/bot/handlers.py:27 | When no name holds a newline, the message splits into exactly 2n lines. Line 2k is `k+1`, a dot and the k-th name. Line 2k+1 is that product's URL. Numbering is consecutive from 1, and there is no trailing newline. |
| Api.FormClean | ozon_parser/api/v1/forms.py:7 | The form accepts only an integer in [0, 50] and refuses with at least one error. |
| Api.FormCleanDecimal | ozon_parser/api/v1/forms.py:7 | The decimal text of `n` is accepted as `n` iff `n` is in [0, 50]. Otherwise it is refused with the bound it crosses. |
| Api.Resolve | ozon_parser/api/v1/views.py:72-79 | An absent or empty `products_count` gives 10. Any other value runs the crawler iff the form accepts it, with the form's cleaned value as the count, so only with a count in [0, 50]. The view never fails. |
| Api.DecimalCountCrashes | ozon_parser/api/v1/views.py:72-79 | `"5.0"` passes the form but `int("5.0")` raises, so the view as written fails where the count 5 was meant. |
| Api.ResolveAgrees | ozon_parser/api/v1/views.py:72-79 | Where `int()` reads the text itself, the view as written and the corrected view agree. |
| Api.Post | ozon_parser/api/v1/views.py:72-79 | The parser is run iff the parameter resolves to a count. Invalid values return the form errors without crawling. Corrected program: the count is resolved by `Api.Resolve`, and records are saved by `Storage.Save` (see Findings). |
| Api.PostBounded | ozon_parser/api/v1/views.py:63-79 | One request adds at most 50 rows (at most 10 without a parameter), only after the stored rows, and keeps `ozon_id` unique. Corrected program: the count is resolved by `Api.Resolve`, and records are saved by `Storage.Save` (see Findings). |
| Api.PostDefault | ozon_parser/api/v1/views.py:72-79 | With no `products_count`, the view crawls `OZON_SELLER_1_PRODUCTS` for 10 records. |
| Api.PostCount | ozon_parser/api/v1/views.py:72-79 | With `products_count` the decimal text of `n`, 0 <= n <= 50, the view crawls `OZON_SELLER_1_PRODUCTS` for exactly `n` records. |

## Left out

- `start_driver` and `get_html` (Selenium with waits, sleeps and time-outs) are not modelled. A page is the oracle's answer to a fetch, and a wait that times out just yields whatever page the oracle gives.
- The BeautifulSoup lookups (`get_name`, `get_image_url`, `get_discount`, `get_description`, and the listing container and cards) are not modelled. Their results are fields of the page oracle: `None` or a text. So `get_image_url`'s `except AttributeError or TypeError`, which catches only `AttributeError`, is not modelled either.
- The NFKD normalisation in `get_description` is left out because it depends on Unicode tables.
- The database is a sequence of rows. `Product.objects.all().values_list` is `StoredIds`, and `latest()` on an empty table is an absent answer. Database errors other than the `NOT NULL` one are not modelled.
- Telegram, the bot's event loop, `sync_send_message` and `send_message.delay` are a message event. The Celery wiring, the `wake_up` handler, logging, settings, admin, URLs, mixins and permissions are left out.
- The `core/tasks.py` imports (`get_product`, a `count_pages` returning a pair, a five-argument `get_new_products`) do not exist in this revision of `core/utils.py`. So the task loop takes the discovered ids and a `Judge` oracle for `get_product`.
- Python's `int()` is modelled on ASCII digits, a sign and surrounding blanks. Underscores between digits and non-ASCII digits are left out.
- Extraction.CountPages, Extraction.ProductIdFromHref, Numbers.DropDecimalTail and Numbers.PyInt read `\d` and digits as ASCII `0`-`9` only. In Python 3 string patterns, `\d` and `int()` also accept the other Unicode decimal digits, so on such input these members diverge from the source. Pages and texts with non-ASCII digits are left out.
- Numbers.PyInt: reads a digit run of any length. Python releases since September 2022 refuse to convert more than 4300 digits, raising `ValueError`. These are 3.11 and the 3.7.14, 3.8.14, 3.9.14 and 3.10.7 security releases, contemporary with the python-telegram-bot 20 `Application` API the bot uses. Texts that long are left out.
- Numbers.PyIntRoundTrip: states `int(str(i)) == i` for every `i`. On those Python releases, `str()` and `int()` raise on more than 4300 digits, so integers of 10^4300 and beyond are left out.
- Extraction.CountPages: a `"totalPages":` value longer than 4300 digits is read as a number. `int()` raises there, so the crawl would crash. Such pages are left out.
- Extraction.ProductIdFromHref: an href id longer than 4300 digits is read as a number. `int()` raises there, so the crawl would crash. Such pages are left out.
- Api.FormClean: a `products_count` with more than 4300 digits is refused with the bound it crosses. Django's `IntegerField` refuses it as invalid, because `int()` raises. Both refuse and nothing is crawled; only the error text differs.
- Api.FormCleanDecimal: for |n| >= 10^4300, it states a refusal with `MaxValue` or `MinValue`. Django refuses such a value as invalid. Counts that long are left out.
- The URL check of `image_url` is the predicate parameter `isUrl` (Django's URL regular expression is not modelled). The framework's surrogate-character check on text fields is left out.
- Names are ordered by code point. The MySQL collation, and the order of rows equal in name and price, are left out.
- `bulk_create` of records that repeat an id within one task run is not modelled: the `Judge` oracle decides each record alone, and the database error that would follow is not modelled.
- The status of `JsonResponse(query.errors)` and the `list`/`retrieve` views are left out.
- Records.Validate: carries no contract of its own (`ProductSerializer(data).is_valid()`). Its meaning is stated by `Records.ValidateSound`, `Records.ValidateErrors`, `Records.ValidateAsData`, `Records.ValidIffConstraints`, `Records.ValidateKeepsId`, `Records.OnlyFieldsMatter` and `Records.RequestDateIgnored`.
- Api.ResolveAsWritten: carries no contract of its own (the view as written). Its meaning is stated by `Api.DecimalCountCrashes` and `Api.ResolveAgrees`.
- Storage.SaveAsWritten: carries no contract of its own (`serializer.save()` with no arguments). Its meaning is stated by `Storage.SaveAsWrittenFails`.
- Storage.SortRows: its own contract states only the length (the `Meta.ordering` of `Product`). Its meaning is stated by `Storage.SortRowsCorrect`.
- Bot.Listing: carries no contract of its own (the reply text). Its meaning is stated by `Bot.ListingLines`.
- Extraction.ProductUrl: carries no contract of its own. Its meaning is stated by `Extraction.ProductUrlInjective`, `Extraction.ProductUrlIdRoundTrip` and `Bot.ListingLines`.
- Records.ValidateErrors: states which fields are named (only failing serializer fields, each with at least one error). It does not state the message texts DRF produces.

## Findings

| source | as written | input that shows it | evidently intended | confidence | as-written member | corrected member |
|---|---|---|---|---|---|---|
| ozon_parser/api/v1/views.py:72-79 | Once `QueryForm` accepts `products_count`, the raw text is passed to `int()`. | `products_count=5.0`: the form's integer field reads 5, but `int("5.0")` raises `ValueError`, giving a server error. | Run the crawler with the form's cleaned value, 5. | not executed | Api.DecimalCountCrashes | Api.Resolve |
| ozon_parser/core/utils.py:306-307 | `serializer.save()` is called without `request_date`. `request_date` is not a serializer field, so the value put in the input dictionary is dropped, and the `NOT NULL` column (products/models.py:23) is left empty. | Any valid record: the insert is refused, so the first product raises instead of being saved. | `serializer.save(request_date=request_date)` stores the product stamped with the crawl moment. | not executed | Storage.SaveAsWrittenFails | Storage.Save |


=== FILE: api.dfy ===
/** `POST /api/v1/products/` (`ProductViewSet.create` in `api/v1/views.py`): resolve the
    `products_count` query parameter, then run the crawler for the fixed seller.

    The parameter is optional: absent or empty means 10. Any other value goes through
    `QueryForm`, whose integer field accepts an integer in [0, 50]; the form's errors are
    answered as they are, and the crawler is not run. */
module Api {
  import opened Wrappers
  import opened Text
  import opened Numbers
  import opened Extraction
  import opened Browser
  import opened Discovery
  import opened Records
  import opened Storage
  import opened Ingestion

  /** Bounds of `QueryForm.products_count` (`api/v1/forms.py`). */
  const MAX_COUNT := 50
  const MIN_COUNT := 0

  /** The count used when the parameter is absent or empty. */
  const DEFAULT_COUNT := 10

  /** `QueryForm({'products_count': s})` on a non-empty `s`: Django's integer field drops a
      trailing `.`, zeros and blanks, reads the rest with `int()`, then runs its
      maximum and minimum validators, collecting both errors. */
  function FormClean(s: string): (r: Result<int, seq<FieldError>>)
    ensures r.Success? ==> MIN_COUNT <= r.value <= MAX_COUNT
    ensures r.Failure? ==> r.error != []
  {
    match PyInt(DropDecimalTail(s))
    case None => Failure([Invalid])
    case Some(n) =>
      var errors := (if n > MAX_COUNT then [MaxValue(MAX_COUNT)] else [])
                    + (if n < MIN_COUNT then [MinValue(MIN_COUNT)] else []);
      if errors == [] then Success(n) else Failure(errors)
  }

  /** How the view answers before the crawler's own answer: run it with a count, send the
      form's errors back, or fail with a server error (an exception in the view). */
  datatype Resolution = Run(count: int) | FormErrors(errors: seq<FieldError>) | ServerError

  /** The view as written: once the form accepts the text, the text itself (not the
      form's cleaned value) is given to `int()`. */
  function ResolveAsWritten(param: Option<string>): Resolution {
    match param
    case None => Run(DEFAULT_COUNT)
    case Some(s) =>
      if s == [] then Run(DEFAULT_COUNT)
      else match FormClean(s)
        case Failure(e) => FormErrors(e)
        case Success(_) =>
          match PyInt(s)
          case None => ServerError
          case Some(n) => Run(n)
  }

  /** The view with the form's cleaned value used as the count: absent or empty gives
      10; otherwise the crawler runs exactly when the form accepts the text, and never
      with a count outside [0, 50]. */
  function Resolve(param: Option<string>): (r: Resolution)
    ensures !r.ServerError?
    ensures param.None? || param == Some([]) ==> r == Run(DEFAULT_COUNT)
    ensures param.Some? && param.value != [] ==> (r.Run? <==> FormClean(param.value).Success?)
    ensures r.Run? ==> MIN_COUNT <= r.count <= MAX_COUNT
    ensures param.Some? && param.value != [] && r.Run? ==> r.count == FormClean(param.value).value
  {
    match param
    case None => Run(DEFAULT_COUNT)
    case Some(s) =>
      if s == [] then Run(DEFAULT_COUNT)
      else match FormClean(s)
        case Failure(e) => FormErrors(e)
        case Success(n) => Run(n)
  }

  /** The form's integer field drops the `.0` of `"5.0"`. */
  lemma {:induction false} DropPointZero()
    ensures DropDecimalTail("5.0") == "5"
  {
    var s := "5.0";
    var r := DropDecimalTail(s);
    assert DecimalTailAt(s, 1) by {
      assert s[2..] == "0" && s[2..][1..] == [];
    }
    assert r != s;
    assert |r| == 1 by {
      assert !DecimalTailAt(s, 0) && !DecimalTailAt(s, 2);
    }
  }

  /** `"5.0"` passes the form, whose integer field reads it as 5, but `int("5.0")` raises:
      the view as written fails with a server error where the count 5 was meant. */
  lemma {:induction false} DecimalCountCrashes()
    ensures FormClean("5.0") == Success(5)
    ensures ResolveAsWritten(Some("5.0")) == ServerError
    ensures Resolve(Some("5.0")) == Run(5)
  {
    DropPointZero();
    PyIntRoundTrip(5);
    assert IntToDecimal(5) == "5";
    assert "5.0"[1] == '.';
  }

  /** Where `int()` reads the text itself, the two views agree: the bug lies only in the
      texts the form accepts and `int()` refuses. */
  lemma {:induction false} ResolveAgrees(s: string)
    requires PyInt(s).Some?
    ensures ResolveAsWritten(Some(s)) == Resolve(Some(s))
  {
    DropDecimalTailNoDot(s);
  }

  /** The decimal text of a count is read back as that count when it is in [0, 50], and
      refused with the bound it crosses otherwise. */
  lemma {:induction false} FormCleanDecimal(n: int)
    ensures MIN_COUNT <= n <= MAX_COUNT ==> FormClean(IntToDecimal(n)) == Success(n)
    ensures n > MAX_COUNT ==> FormClean(IntToDecimal(n)) == Failure([MaxValue(MAX_COUNT)])
    ensures n < MIN_COUNT ==> FormClean(IntToDecimal(n)) == Failure([MinValue(MIN_COUNT)])
  {
    var s := IntToDecimal(n);
    PyIntRoundTrip(n);
    DropDecimalTailNoDot(s);
    if n > MAX_COUNT {
      assert [MaxValue(MAX_COUNT)] + [] == [MaxValue(MAX_COUNT)];
    } else if n < MIN_COUNT {
      assert [] + [MinValue(MIN_COUNT)] == [MinValue(MIN_COUNT)];
    }
  }

  /** The whole request: resolve the parameter, then crawl the fixed seller on the table
      `t`; `None` where the crawler is not run. */
  function Post(site: Site, param: Option<string>, t: Table, date: int, isUrl: string -> bool): (o: Option<Outcome>)
    ensures o.Some? <==> Resolve(param).Run?
  {
    match Resolve(param)
    case Run(n) => Some(ParseSeller(site, OZON_SELLER_1_PRODUCTS, n, t, date, isUrl))
    case _ => None
  }

  /** Without a parameter the view crawls the fixed seller for 10 products. */
  lemma {:induction false} PostDefault(site: Site, t: Table, date: int, isUrl: string -> bool)
    ensures Post(site, None, t, date, isUrl)
            == Some(ParseSeller(site, OZON_SELLER_1_PRODUCTS, DEFAULT_COUNT, t, date, isUrl))
  {
  }

  /** With the decimal text of a count in [0, 50] the view crawls the fixed seller for
      exactly that count. */
  lemma {:induction false} PostCount(site: Site, n: int, t: Table, date: int, isUrl: string -> bool)
    requires MIN_COUNT <= n <= MAX_COUNT
    ensures Post(site, Some(IntToDecimal(n)), t, date, isUrl)
            == Some(ParseSeller(site, OZON_SELLER_1_PRODUCTS, n, t, date, isUrl))
  {
    FormCleanDecimal(n);
  }

  /** One request adds at most 50 products (at most 10 without a parameter), only after
      the rows already stored, and keeps `ozon_id` unique. */
  lemma {:induction false} PostBounded(site: Site, param: Option<string>, t: Table, date: int, isUrl: string -> bool)
    requires UniqueIds(t)
    ensures var o := Post(site, param, t, date, isUrl);
      o.Some? ==>
        && |t| <= |o.value.table| <= |t| + MAX_COUNT
        && (param.None? ==> |o.value.table| <= |t| + DEFAULT_COUNT)
        && o.value.table[..|t|] == t
        && UniqueIds(o.value.table)
  {
    var r := Resolve(param);
    if r.Run? {
      ParseSellerAppends(site, OZON_SELLER_1_PRODUCTS, r.count, t, date, isUrl);
      ParseSellerKeepsUnique(site, OZON_SELLER_1_PRODUCTS, r.count, t, date, isUrl);
    }
  }
}

=== FILE: bot.dfy ===
/** The bot's "product list" reply (`get_latest_products` in `bot/handlers.py`): the
    products stamped with the latest crawl moment, in the table's default order, one
    numbered entry each, `"{k}.{name}\n{url}"`, the entries joined by a newline. */
module Bot {
  import opened Wrappers
  import opened Text
  import opened Extraction
  import opened Records
  import opened Storage

  /** `Product.objects.latest('request_date').request_date`: the latest crawl moment. */
  function LatestDate(t: Table): (d: int)
    requires t != []
    ensures exists i | 0 <= i < |t| :: t[i].requestDate == d
    ensures forall i | 0 <= i < |t| :: t[i].requestDate <= d
    decreases |t|
  {
    if |t| == 1 then t[0].requestDate
    else
      var rest := LatestDate(t[1..]);
      assert forall i | 1 <= i < |t| :: t[i] == t[1..][i - 1];
      if t[0].requestDate >= rest then t[0].requestDate else rest
  }

  /** `filter(request_date=d)`: the rows crawled at `d`, in table order. */
  function RowsOn(t: Table, d: int): (r: Table)
    ensures forall x :: x in r <==> x in t && x.requestDate == d
    decreases |t|
  {
    if t == [] then []
    else
      assert forall x | x in t[1..] :: x in t;
      assert forall x | x in t :: x == t[0] || x in t[1..];
      (if t[0].requestDate == d then [t[0]] else []) + RowsOn(t[1..], d)
  }

  /** The filter keeps each row crawled at `d` as many times as the table holds it. */
  lemma {:induction false} RowsOnCounts(t: Table, d: int)
    ensures forall x :: multiset(RowsOn(t, d))[x] == if x.requestDate == d then multiset(t)[x] else 0
    decreases |t|
  {
    if t != [] {
      RowsOnCounts(t[1..], d);
      assert t == [t[0]] + t[1..];
    }
  }

  /** The rows the reply lists, in the default order; `None` on an empty table, where
      `latest()` raises instead of answering. Which rows, and in what order, is stated
      by `LatestBatchSelects`. */
  function LatestBatch(t: Table): (r: Option<Table>)
    ensures r.None? <==> t == []
  {
    if t == [] then None else Some(SortRows(RowsOn(t, LatestDate(t))))
  }

  /** The listing selects exactly the rows carrying the latest moment of the table, and
      all of them (as many times as they occur), sorted by name, then price; a non-empty
      table gives a non-empty listing. */
  lemma {:induction false} LatestBatchSelects(t: Table)
    requires t != []
    ensures var r := LatestBatch(t).value;
      && r != []
      && SortedRows(r)
      && (forall x :: x in r <==> x in t && forall y | y in t :: y.requestDate <= x.requestDate)
      && (forall x :: multiset(r)[x] == if x.requestDate == LatestDate(t) then multiset(t)[x] else 0)
  {
    var d := LatestDate(t);
    var on := RowsOn(t, d);
    SortRowsCorrect(on);
    RowsOnCounts(t, d);
    LatestRowsMembers(t);
  }

  /** The latest moment, stated on the rows themselves: no row is later, and some row
      carries it. */
  lemma {:induction false} LatestBounds(t: Table)
    requires t != []
    ensures forall y | y in t :: y.requestDate <= LatestDate(t)
    ensures exists y | y in t :: y.requestDate == LatestDate(t)
  {
    forall y | y in t
      ensures y.requestDate <= LatestDate(t)
    {
      var j :| 0 <= j < |t| && t[j] == y;
    }
    var i :| 0 <= i < |t| && t[i].requestDate == LatestDate(t);
    assert t[i] in t;
  }

  /** The rows crawled at the latest moment are those no row of the table is later than,
      and there is at least one. */
  lemma {:induction false} LatestRowsMembers(t: Table)
    requires t != []
    ensures var on := RowsOn(t, LatestDate(t));
      && on != []
      && forall x :: x in on <==> x in t && forall y | y in t :: y.requestDate <= x.requestDate
  {
    var d := LatestDate(t);
    var on := RowsOn(t, d);
    LatestBounds(t);
    var top :| top in t && top.requestDate == d;
    assert top in on;
    forall x
      ensures x in on <==> x in t && forall y | y in t :: y.requestDate <= x.requestDate
    {
      if x in t && forall y | y in t :: y.requestDate <= x.requestDate {
        assert top.requestDate <= x.requestDate;
      }
    }
  }

  // ------------------------------------------------------------------ the reply

  /** The first line of entry `k` (counting from 0): its 1-based number, a dot, the name. */
  function Heading(k: nat, row: Row): string {
    NatToDecimal(k + 1) + "." + row.product.name
  }

  /** The address of the product (`get_ozon_product_url`). */
  function Link(row: Row): string {
    ProductUrl(row.product.ozonId)
  }

  /** Entry `k`: the heading, a newline, the address. */
  function Entry(k: nat, row: Row): string {
    Heading(k, row) + "\n" + Link(row)
  }

  /** The entries, numbered from 0 (the list comprehension over `range(len(...))`).
      How the joined entries read back, line by line, is stated by `ListingLines`. */
  function Entries(rows: Table): (r: seq<string>)
    ensures |r| == |rows|
  {
    seq(|rows|, k requires 0 <= k < |rows| => Entry(k, rows[k]))
  }

  /** The message text: `'\n'.join(...)` of the entries. */
  function Listing(rows: Table): string {
    Join(Entries(rows), "\n")
  }

  /** What the handler sends for the table `t`; `None` where it raises (empty table). */
  function LatestProducts(t: Table): (m: Option<string>)
    ensures m.Some? <==> t != []
  {
    match LatestBatch(t)
    case None => None
    case Some(rows) => Some(Listing(rows))
  }

  lemma {:induction false} NoNewlineInNumber(n: nat)
    ensures '\n' !in NatToDecimal(n)
  {
    var s := NatToDecimal(n);
    forall i | 0 <= i < |s|
      ensures s[i] != '\n'
    {
      assert IsDigit(s[i]);
    }
  }

  lemma {:induction false} NoNewlineInLink(row: Row)
    ensures '\n' !in Link(row)
  {
    var id := row.product.ozonId;
    var digits := NatToDecimal(if id < 0 then -id else id);
    NoNewlineInNumber(if id < 0 then -id else id);
    assert IntToDecimal(id) == (if id < 0 then "-" else "") + digits;
    assert Link(row) == OZON_PRODUCT_URL + IntToDecimal(id);
    assert '\n' !in OZON_PRODUCT_URL;
  }

  /** Reading the message back: when no listed name holds a newline, the message's lines
      are, for the `k`-th row (from 0), its number `k + 1`, a dot and its name, then its
      address — consecutive numbers from 1, no trailing newline, nothing else. */
  lemma {:induction false} ListingLines(rows: Table)
    requires rows != []
    requires forall k | 0 <= k < |rows| :: '\n' !in rows[k].product.name
    ensures var lines := SplitOn(Listing(rows), '\n');
      && |lines| == 2 * |rows|
      && forall k | 0 <= k < |rows| ::
           lines[2 * k] == NatToDecimal(k + 1) + "." + rows[k].product.name
           && lines[2 * k + 1] == ProductUrl(rows[k].product.ozonId)
  {
    var heads := seq(|rows|, k requires 0 <= k < |rows| => Heading(k, rows[k]));
    var links := seq(|rows|, k requires 0 <= k < |rows| => Link(rows[k]));
    var ls := Interleave(heads, links);
    JoinHalves(heads, links, Entries(rows), "\n");
    forall i | 0 <= i < |ls|
      ensures '\n' !in ls[i]
    {
      var k := i / 2;
      InterleaveAt(heads, links, k);
      if i % 2 == 0 {
        assert i == 2 * k;
        NoNewlineInNumber(k + 1);
      } else {
        assert i == 2 * k + 1;
        NoNewlineInLink(rows[k]);
      }
    }
    SplitOnJoin(ls, '\n');
    forall k | 0 <= k < |rows|
      ensures ls[2 * k] == NatToDecimal(k + 1) + "." + rows[k].product.name
      ensures ls[2 * k + 1] == ProductUrl(rows[k].product.ozonId)
    {
      InterleaveAt(heads, links, k);
    }
  }
}

=== FILE: browser.dfy ===
/** The headless browser, as an oracle. `get_html(driver, url, css_selector)`
    navigates and waits (for the marker, or a fixed delay when it is empty);
    here one fetch is a `Fetch` value and what the page shows is whatever the
    oracle answers for it. What the HTML parser finds on a page is part of the
    answer: the links of the listing's item cards, and the detail-page fields. */
module Browser {
  import opened Wrappers
  import opened Extraction

  /** One `get_html` call: where the browser is sent, and the CSS marker it waits for
      (`""`: no marker). A product page is named by its id; its address is
      `ProductUrl(id)`. */
  datatype Fetch =
    | Fetch(url: string, marker: string)
    | ProductPage(id: int, marker: string)

  /** The address a fetch navigates to. */
  function Address(f: Fetch): string {
    match f
    case Fetch(url, _) => url
    case ProductPage(id, _) => ProductUrl(id)
  }

  /** What the field getters of `core/utils.py` return for a detail page;
      `None` where the element is missing (the getters catch that error). */
  datatype Fields = Fields(
    name: Option<string>,
    imageUrl: Option<string>,
    priceText: Option<string>,
    discount: Option<string>,
    description: Option<string>)

  /** A rendered page: its source text, the `href` of the link in each item card of
      the listing container (`None` when the container or a link is missing), and
      the detail-page fields. */
  datatype Document = Document(source: string, hrefs: Option<seq<string>>, fields: Fields)

  type Site = Fetch -> Document
}

=== FILE: discovery.dfy ===
/** Discovery of unseen products on the seller listing (`get_new_products` and
    its helpers in `core/utils.py`): list merging without repeats, per-page
    filtering against the ids already stored, and the page walk with its early
    stop. The ids already stored are a snapshot taken once, before the walk. */
module Discovery {
  import opened Wrappers
  import opened Text
  import opened Extraction
  import opened Browser

  type Id = int

  predicate NoDup(s: seq<Id>) {
    forall i, j | 0 <= i < j < |s| :: s[i] != s[j]
  }

  function Min(a: int, b: int): int {
    if a <= b then a else b
  }

  function Max(a: int, b: int): int {
    if a <= b then b else a
  }

  // ---------------------------------------------------------- extend_with_unique

  /** `extend_with_unique(list1, list2)`: walks `list2` left to right and appends each
      element not yet in the (growing) `list1`. */
  function ExtendWithUnique(l1: seq<Id>, l2: seq<Id>): (r: seq<Id>)
    ensures |l1| <= |r| <= |l1| + |l2| && r[..|l1|] == l1
    decreases |l2|
  {
    if l2 == [] then l1
    else
      var next := if l2[0] in l1 then l1 else l1 + [l2[0]];
      assert next[..|l1|] == l1;
      var r := ExtendWithUnique(next, l2[1..]);
      assert r[..|l1|] == r[..|next|][..|l1|];
      r
  }

  /** The first occurrence of every element, in order of first occurrence. */
  function Dedup(s: seq<Id>): (r: seq<Id>)
    ensures NoDup(r)
    ensures forall x :: x in r <==> x in s
    decreases |s|
  {
    if s == [] then []
    else
      var p := s[..|s| - 1];
      var x := s[|s| - 1];
      assert s == p + [x];
      Dedup(p) + (if x in p then [] else [x])
  }

  function SetOf(s: seq<Id>): set<Id> {
    set x | x in s
  }

  /** Appending one element to the list being merged in adds it at the end,
      unless it is already there. */
  lemma {:induction false} ExtendWithUniqueSnoc(l1: seq<Id>, p: seq<Id>, x: Id)
    ensures ExtendWithUnique(l1, p + [x]) ==
      (var r := ExtendWithUnique(l1, p); if x in r then r else r + [x])
    decreases |p|
  {
    if p == [] {
      assert [x][1..] == [];
    } else {
      assert (p + [x])[1..] == p[1..] + [x];
      var next := if p[0] in l1 then l1 else l1 + [p[0]];
      ExtendWithUniqueSnoc(next, p[1..], x);
    }
  }

  /** Independent reading of `extend_with_unique`: `list1`, then the first occurrences
      of the elements of `list2` that `list1` does not hold. */
  lemma {:induction false} ExtendWithUniqueIsFirstOccurrences(l1: seq<Id>, l2: seq<Id>)
    ensures ExtendWithUnique(l1, l2) == l1 + NewOnPage(Dedup(l2), SetOf(l1))
    decreases |l2|
  {
    if l2 != [] {
      var p := l2[..|l2| - 1];
      var x := l2[|l2| - 1];
      assert l2 == p + [x];
      ExtendWithUniqueIsFirstOccurrences(l1, p);
      FirstOccurrencesStep(l1, p, x);
    }
  }

  /** One more element merged in keeps the two readings of `extend_with_unique` equal. */
  lemma {:induction false} FirstOccurrencesStep(l1: seq<Id>, p: seq<Id>, x: Id)
    requires ExtendWithUnique(l1, p) == l1 + NewOnPage(Dedup(p), SetOf(l1))
    ensures ExtendWithUnique(l1, p + [x]) == l1 + NewOnPage(Dedup(p + [x]), SetOf(l1))
  {
    var tail := if x in p then [] else [x];
    var n, m := NewOnPage(Dedup(p), SetOf(l1)), NewOnPage(tail, SetOf(l1));
    MergedInOnce(l1, p, x);
    DedupSnoc(p, x);
    NewOnPageAppend(Dedup(p), tail, SetOf(l1));
    assert NewOnPage(Dedup(p + [x]), SetOf(l1)) == n + m;
    if x in p {
      assert m == [] && n + m == n;
    } else {
      NewOnPageOne(x, SetOf(l1));
      if x in l1 {
        assert m == [] && n + m == n;
      } else {
        assert m == [x];
        AppendAssociative(l1, n, [x]);
      }
    }
  }

  lemma {:induction false} AppendAssociative(a: seq<Id>, b: seq<Id>, c: seq<Id>)
    ensures (a + b) + c == a + (b + c)
  {
  }

  /** The element merged in last is added exactly when neither list held it. */
  lemma {:induction false} MergedInOnce(l1: seq<Id>, p: seq<Id>, x: Id)
    requires ExtendWithUnique(l1, p) == l1 + NewOnPage(Dedup(p), SetOf(l1))
    ensures x in p || x in l1 ==> ExtendWithUnique(l1, p + [x]) == ExtendWithUnique(l1, p)
    ensures x !in p && x !in l1 ==> ExtendWithUnique(l1, p + [x]) == ExtendWithUnique(l1, p) + [x]
  {
    var r := ExtendWithUnique(l1, p);
    ExtendWithUniqueSnoc(l1, p, x);
    NewOnPageMembers(Dedup(p), SetOf(l1));
    assert x in r <==> x in l1 || x in p;
  }

  lemma {:induction false} NewOnPageOne(x: Id, known: set<Id>)
    ensures NewOnPage([x], known) == if x in known then [] else [x]
  {
    assert [x][1..] == [];
  }

  lemma {:induction false} DedupSnoc(p: seq<Id>, x: Id)
    ensures Dedup(p + [x]) == Dedup(p) + (if x in p then [] else [x])
  {
    assert (p + [x])[..|p + [x]| - 1] == p;
  }

  /** What `extend_with_unique` promises its callers: `list1` is kept as a prefix, the
      result holds exactly the elements of both lists, and no repeats are introduced. */
  lemma {:induction false} ExtendWithUniqueProperties(l1: seq<Id>, l2: seq<Id>)
    ensures var r := ExtendWithUnique(l1, l2);
      && r[..|l1|] == l1
      && (forall x :: x in r <==> x in l1 || x in l2)
      && (NoDup(l1) ==> NoDup(r))
  {
    var r := ExtendWithUnique(l1, l2);
    var tail := NewOnPage(Dedup(l2), SetOf(l1));
    ExtendWithUniqueIsFirstOccurrences(l1, l2);
    assert r == l1 + tail;
    NewOnPageMembers(Dedup(l2), SetOf(l1));
    assert forall x :: x in tail <==> x in l2 && x !in l1;
    if NoDup(l1) {
      NewOnPageNoDup(Dedup(l2), SetOf(l1));
      forall i, j | 0 <= i < j < |r|
        ensures r[i] != r[j]
      {
        if j >= |l1| && i < |l1| {
          assert r[j] in tail;
        }
      }
    }
  }

  // ------------------------------------------------- get_new_products_on_page

  /** The filter of `get_new_products_on_page`: drops the ids already stored, keeps the
      others (repeats included) in page order. */
  function NewOnPage(ids: seq<Id>, known: set<Id>): (r: seq<Id>)
    ensures |r| <= |ids|
    decreases |ids|
  {
    if ids == [] then []
    else (if ids[0] in known then [] else [ids[0]]) + NewOnPage(ids[1..], known)
  }

  lemma {:induction false} NewOnPageMembers(ids: seq<Id>, known: set<Id>)
    ensures forall x :: x in NewOnPage(ids, known) <==> x in ids && x !in known
    decreases |ids|
  {
    if ids != [] {
      NewOnPageMembers(ids[1..], known);
      assert forall x | x in ids :: x == ids[0] || x in ids[1..];
    }
  }

  /** Exactly the stored ids are removed, and every other id keeps all its repeats. */
  lemma {:induction false} NewOnPageCounts(ids: seq<Id>, known: set<Id>)
    ensures forall x :: multiset(NewOnPage(ids, known))[x] == if x in known then 0 else multiset(ids)[x]
    decreases |ids|
  {
    if ids != [] {
      NewOnPageCounts(ids[1..], known);
      assert ids == [ids[0]] + ids[1..];
    }
  }

  lemma {:induction false} NewOnPageNoDup(ids: seq<Id>, known: set<Id>)
    requires NoDup(ids)
    ensures NoDup(NewOnPage(ids, known))
    decreases |ids|
  {
    if ids != [] {
      NewOnPageNoDup(ids[1..], known);
      NewOnPageMembers(ids[1..], known);
      assert ids[0] !in ids[1..];
    }
  }

  /** Filtering a concatenation filters each part in place: the page order survives. */
  lemma {:induction false} NewOnPageAppend(a: seq<Id>, b: seq<Id>, known: set<Id>)
    ensures NewOnPage(a + b, known) == NewOnPage(a, known) + NewOnPage(b, known)
    decreases |a|
  {
    if a == [] {
      assert a + b == b;
    } else {
      assert (a + b)[1..] == a[1..] + b;
      NewOnPageAppend(a[1..], b, known);
    }
  }

  /** The ids of the item links, in card order; `None` as soon as one link has no id
      (the Python comprehension raises there). */
  function IdsOfLinks(hrefs: seq<string>): (r: Option<seq<Id>>)
    ensures r.Some? <==> forall k | 0 <= k < |hrefs| :: ProductIdFromHref(hrefs[k]).Some?
    ensures r.Some? ==> |r.value| == |hrefs|
    ensures r.Some? ==> forall k | 0 <= k < |hrefs| ::
      ProductIdFromHref(hrefs[k]).Some? && ProductIdFromHref(hrefs[k]).value == r.value[k]
    decreases |hrefs|
  {
    if hrefs == [] then Some([])
    else
      match ProductIdFromHref(hrefs[0])
      case None => None
      case Some(id) =>
        match IdsOfLinks(hrefs[1..])
        case None => None
        case Some(rest) => Some([id as Id] + rest)
  }

  /** The ids a listing page shows; `None` when its container or a link is missing. */
  function ListingIds(d: Document): Option<seq<Id>> {
    match d.hrefs
    case None => None
    case Some(hs) => IdsOfLinks(hs)
  }

  // ------------------------------------------------------------ get_new_products

  /** Page `k` of the listing: the bare URL for page 1, `url + '?page=k'` after it. */
  function ListingFetch(url: string, k: nat): Fetch {
    if k <= 1 then Fetch(url, SELLER_PAGE_MARK)
    else Fetch(url + "?page=" + NatToDecimal(k), SELLER_PAGE_MARK)
  }

  /** The probe `count_pages` makes: the bare URL, with no marker. */
  function ProbeFetch(url: string): Fetch {
    Fetch(url, "")
  }

  /** What the walk reads from a seller listing: the page count the probe shows, and
      the ids listing page `k` shows (`None` where reading them fails). */
  datatype Listing = Listing(total: Option<nat>, ids: nat -> Option<seq<Id>>)

  /** The listing at `url` as the browser shows it, read through `count_pages` and the
      card parser. */
  function SiteListing(site: Site, url: string): Listing {
    Listing(CountPages(site(ProbeFetch(url)).source), (k: nat) => ListingIds(site(ListingFetch(url, k))))
  }

  /** Python's `s[:n]`, negative `n` included. */
  function Take(s: seq<Id>, n: int): (r: seq<Id>)
    ensures |r| <= |s| && r == s[..|r|]
    ensures n >= 0 ==> |r| == Min(n, |s|)
  {
    if n >= 0 then (if n <= |s| then s[..n] else s)
    else if |s| + n >= 0 then s[..|s| + n]
    else []
  }

  datatype WalkError = NoPageCount | NoListing(url: string)

  /** The outcome of a walk and every fetch it made, in order. */
  datatype Walk = Walk(result: Result<seq<Id>, WalkError>, log: seq<Fetch>)

  /** The log of a walk: the probe, then listing pages 1, 2, ... in ascending order. */
  predicate ListingLog(url: string, log: seq<Fetch>) {
    && |log| >= 1
    && log[0] == ProbeFetch(url)
    && forall k | 1 <= k < |log| :: log[k] == ListingFetch(url, k)
  }

  /** The probe followed by listing pages 1..last. */
  function FetchLog(url: string, last: nat): (log: seq<Fetch>)
    ensures |log| == last + 1 && ListingLog(url, log)
  {
    [ProbeFetch(url)] + seq(last, i requires 0 <= i < last => ListingFetch(url, i + 1))
  }

  /** Distinct listing pages are distinct fetches: the `?page=` text of a page reads back
      as its number. */
  lemma {:induction false} ListingFetchInjective(url: string, a: nat, b: nat)
    requires 1 <= a && 1 <= b
    ensures ListingFetch(url, a) == ListingFetch(url, b) ==> a == b
  {
    var pre := url + "?page=";
    if a >= 2 && b >= 2 && ListingFetch(url, a) == ListingFetch(url, b) {
      assert ListingFetch(url, a).url[|pre|..] == NatToDecimal(a);
      assert ListingFetch(url, b).url[|pre|..] == NatToDecimal(b);
      NatToDecimalInjective(a, b);
    } else if a >= 2 && b < 2 {
      assert |ListingFetch(url, a).url| > |url|;
    } else if b >= 2 && a < 2 {
      assert |ListingFetch(url, b).url| > |url|;
    }
  }

  /** A walk that ends at page `last` fetches page `k` iff `1 <= k <= last`, and fetches
      nothing twice: the probe is not a listing fetch, and no page is visited again. */
  lemma {:induction false} FetchLogPages(url: string, last: nat)
    ensures var log := FetchLog(url, last);
      && (forall k: nat | 1 <= k :: ListingFetch(url, k) in log <==> k <= last)
      && (forall i, j | 0 <= i < j < |log| :: log[i] != log[j])
  {
    var log := FetchLog(url, last);
    forall k: nat | 1 <= k
      ensures ListingFetch(url, k) in log <==> k <= last
    {
      if ListingFetch(url, k) in log {
        var i :| 0 <= i < |log| && log[i] == ListingFetch(url, k);
        assert i != 0 by {
          assert log[0].marker == "" != SELLER_PAGE_MARK == ListingFetch(url, k).marker;
        }
        ListingFetchInjective(url, i, k);
      }
      if k <= last {
        assert log[k] == ListingFetch(url, k);
      }
    }
    forall i, j | 0 <= i < j < |log|
      ensures log[i] != log[j]
    {
      if i == 0 {
        assert log[0].marker != log[j].marker;
      } else {
        ListingFetchInjective(url, i, j);
      }
    }
  }

  /** `get_new_products`: probe the page count, filter page 1, return early when it
      already has enough, else merge pages 2..N in until the running list is long
      enough (or the pages run out). A missing page count or listing ends the walk. */
  function Discover(seller: Listing, url: string, count: int, known: set<Id>): (w: Walk)
    ensures ListingLog(url, w.log)
    ensures w.result == Failure(NoPageCount) <==> seller.total.None?
    ensures w.result == Failure(NoPageCount) ==> |w.log| == 1
    ensures w.result.Success? ==> seller.total.Some? && 2 <= |w.log| <= Max(seller.total.value, 1) + 1
    ensures w.result.Failure? && w.result.error.NoListing? ==>
      |w.log| >= 2 && seller.ids(|w.log| - 1).None?
  {
    match seller.total
    case None => Walk(Failure(NoPageCount), FetchLog(url, 0))
    case Some(pages) =>
      match seller.ids(1)
      case None => Walk(Failure(NoListing(url)), FetchLog(url, 1))
      case Some(ids) =>
        var unseen := NewOnPage(ids, known);
        if |unseen| >= count then Walk(Success(Take(unseen, count)), FetchLog(url, 1))
        else
          var stop := WalkPages(seller, url, count, known, 2, pages, unseen);
          Walk(stop.result, FetchLog(url, stop.last))
  }

  /** Where the page loop ended: its outcome and the last page it fetched. */
  datatype Stop = Stop(result: Result<seq<Id>, WalkError>, last: nat)

  /** The `for page in range(2, pages_count + 1)` loop, from page `k` on, with the
      unseen ids of pages 1..k-1 merged into `acc`. */
  function WalkPages(seller: Listing, url: string, count: int, known: set<Id>,
                     k: nat, pages: nat, acc: seq<Id>): (s: Stop)
    requires 2 <= k
    ensures k - 1 <= s.last <= Max(k - 1, pages)
    ensures s.result.Failure? ==> s.result.error.NoListing? && s.last >= k && seller.ids(s.last).None?
    decreases pages + 1 - k
  {
    if k > pages then Stop(Success(acc), k - 1)
    else
      match seller.ids(k)
      case None => Stop(Failure(NoListing(ListingFetch(url, k).url)), k)
      case Some(ids) =>
        var acc' := ExtendWithUnique(acc, NewOnPage(ids, known));
        if |acc'| >= count then Stop(Success(Take(acc', count)), k)
        else WalkPages(seller, url, count, known, k + 1, pages, acc')
  }

  predicate Unknown(s: seq<Id>, known: set<Id>) {
    forall x | x in s :: x !in known
  }

  lemma {:induction false} WalkPagesSafe(seller: Listing, url: string, count: int, known: set<Id>,
                                        k: nat, pages: nat, acc: seq<Id>)
    requires 2 <= k
    requires Unknown(acc, known)
    ensures var s := WalkPages(seller, url, count, known, k, pages, acc);
      s.result.Success? ==>
        && Unknown(s.result.value, known)
        && (0 <= count && |acc| < count ==> |s.result.value| <= count)
        && (NoDup(acc) ==> NoDup(s.result.value))
    decreases pages + 1 - k
  {
    if k <= pages {
      match seller.ids(k)
      case None =>
      case Some(ids) =>
        var unseen := NewOnPage(ids, known);
        var acc' := ExtendWithUnique(acc, unseen);
        NewOnPageMembers(ids, known);
        ExtendWithUniqueProperties(acc, unseen);
        assert Unknown(acc', known);
        if |acc'| >= count {
          var r := Take(acc', count);
          assert forall i | 0 <= i < |r| :: r[i] == acc'[i];
        } else {
          WalkPagesSafe(seller, url, count, known, k + 1, pages, acc');
        }
    }
  }

  /** What the walk promises for a non-negative count: no stored id comes back, at most
      `count` ids come back, and no id comes back twice unless page 1 itself repeats one. */
  lemma {:induction false} DiscoverSafe(seller: Listing, url: string, count: int, known: set<Id>)
    requires 0 <= count
    ensures var w := Discover(seller, url, count, known);
      w.result.Success? ==>
        && (forall x | x in w.result.value :: x !in known)
        && |w.result.value| <= count
        && (NoDup(NewOnPage(seller.ids(1).value, known)) ==> NoDup(w.result.value))
  {
    var w := Discover(seller, url, count, known);
    if w.result.Success? {
      var ids := seller.ids(1).value;
      var unseen := NewOnPage(ids, known);
      NewOnPageMembers(ids, known);
      var pages := seller.total.value;
      if |unseen| >= count {
        var r := Take(unseen, count);
        assert forall i | 0 <= i < |r| :: r[i] == unseen[i];
      } else {
        WalkPagesSafe(seller, url, count, known, 2, pages, unseen);
      }
    }
  }

  // ------------------------------------------------------ reference: the full merge

  /** Reference: pages 1..k filtered and merged, with no early stop. */
  function Merged(seller: Listing, known: set<Id>, k: nat): Option<seq<Id>>
    requires k >= 1
    decreases k
  {
    if k == 1 then
      (match seller.ids(1)
       case None => None
       case Some(ids) => Some(NewOnPage(ids, known)))
    else
      match Merged(seller, known, k - 1)
      case None => None
      case Some(acc) =>
        match seller.ids(k)
        case None => None
        case Some(ids) => Some(ExtendWithUnique(acc, NewOnPage(ids, known)))
  }

  /** Merging more pages only appends. */
  lemma {:induction false} MergedGrows(seller: Listing, known: set<Id>, j: nat, k: nat)
    requires 1 <= j <= k
    requires Merged(seller, known, k).Some?
    ensures Merged(seller, known, j).Some?
    ensures var a, b := Merged(seller, known, j).value, Merged(seller, known, k).value;
      |a| <= |b| && b[..|a|] == a
    decreases k - j
  {
    if j < k {
      MergedOneMore(seller, known, k);
      MergedGrows(seller, known, j, k - 1);
      PrefixTransitive(Merged(seller, known, j).value, Merged(seller, known, k - 1).value,
                       Merged(seller, known, k).value);
    } else {
      PrefixReflexive(Merged(seller, known, k).value);
    }
  }

  lemma {:induction false} PrefixReflexive(b: seq<Id>)
    ensures b[..|b|] == b
  {
  }

  lemma {:induction false} PrefixTransitive(a: seq<Id>, m: seq<Id>, b: seq<Id>)
    requires |a| <= |m| && m[..|a|] == a
    requires |m| <= |b| && b[..|m|] == m
    ensures |a| <= |b| && b[..|a|] == a
  {
    assert b[..|a|] == b[..|m|][..|a|];
  }

  /** The merge of pages 1..k extends the merge of pages 1..k-1. */
  lemma {:induction false} MergedOneMore(seller: Listing, known: set<Id>, k: nat)
    requires 2 <= k
    requires Merged(seller, known, k).Some?
    ensures Merged(seller, known, k - 1).Some?
    ensures var m, b := Merged(seller, known, k - 1).value, Merged(seller, known, k).value;
      |m| <= |b| && b[..|m|] == m
  {
  }

  /** One more page of the full merge: page `k` filtered, appended after pages 1..k-1. */
  lemma {:induction false} MergedStep(seller: Listing, known: set<Id>, k: nat, acc: seq<Id>)
    requires 2 <= k
    requires Merged(seller, known, k - 1) == Some(acc)
    requires Merged(seller, known, k).Some?
    ensures seller.ids(k).Some?
    ensures Merged(seller, known, k).value == ExtendWithUnique(acc, NewOnPage(seller.ids(k).value, known))
  {
  }

  /** One turn of the page loop on a readable page. */
  lemma {:induction false} WalkPagesStep(seller: Listing, url: string, count: int, known: set<Id>,
                      k: nat, pages: nat, acc: seq<Id>, acc': seq<Id>)
    requires 2 <= k <= pages
    requires seller.ids(k).Some?
    requires acc' == ExtendWithUnique(acc, NewOnPage(seller.ids(k).value, known))
    ensures |acc'| >= count ==> WalkPages(seller, url, count, known, k, pages, acc) == Stop(Success(Take(acc', count)), k)
    ensures |acc'| < count ==> WalkPages(seller, url, count, known, k, pages, acc) == WalkPages(seller, url, count, known, k + 1, pages, acc')
  {
  }

  /** The first `n` ids of a list are those of any prefix at least `n` long. */
  lemma {:induction false} TakeOfPrefix(all: seq<Id>, p: seq<Id>, n: int)
    requires |p| <= |all| && all[..|p|] == p
    requires 0 <= n <= |p|
    ensures Take(all, n) == Take(p, n)
  {
    assert all[..n] == all[..|p|][..n];
  }

  /** From page `k` on, the walk returns the first `count` ids of the full merge. */
  lemma {:induction false} WalkPagesTakesMerged(seller: Listing, url: string, count: int, known: set<Id>,
                                               k: nat, pages: nat, acc: seq<Id>)
    requires 2 <= k <= Max(pages, 1) + 1
    requires Merged(seller, known, Max(pages, 1)).Some?
    requires Merged(seller, known, k - 1) == Some(acc)
    requires 0 <= count && |acc| < count
    ensures WalkPages(seller, url, count, known, k, pages, acc).result
      == Success(Take(Merged(seller, known, Max(pages, 1)).value, count))
    decreases pages + 1 - k
  {
    var all := Merged(seller, known, Max(pages, 1)).value;
    if k <= pages {
      MergedGrows(seller, known, k, pages);
      MergedStep(seller, known, k, acc);
      var acc' := Merged(seller, known, k).value;
      WalkPagesStep(seller, url, count, known, k, pages, acc, acc');
      if |acc'| >= count {
        TakeOfPrefix(all, acc', count);
      } else {
        WalkPagesTakesMerged(seller, url, count, known, k + 1, pages, acc');
      }
    } else {
      assert k - 1 == Max(pages, 1);
    }
  }

  /** The walk returns the first `count` ids of pages 1..N filtered and merged, for a
      non-negative count, whenever all those pages can be read: the early stop
      changes which pages are fetched, never the answer. */
  lemma {:induction false} DiscoverTakesMerged(seller: Listing, url: string, count: int, known: set<Id>)
    requires 0 <= count
    requires seller.total.Some?
    requires Merged(seller, known, Max(seller.total.value, 1)).Some?
    ensures var all := Merged(seller, known, Max(seller.total.value, 1)).value;
      && Discover(seller, url, count, known).result == Success(Take(all, count))
      && |Take(all, count)| == Min(count, |all|)
  {
    var pages := seller.total.value;
    var all := Merged(seller, known, Max(pages, 1)).value;
    MergedGrows(seller, known, 1, Max(pages, 1));
    var unseen := Merged(seller, known, 1).value;
    assert seller.ids(1).Some?;
    assert unseen == NewOnPage(seller.ids(1).value, known);
    if |unseen| >= count {
      TakeOfPrefix(all, unseen, count);
    } else {
      WalkPagesTakesMerged(seller, url, count, known, 2, pages, unseen);
    }
  }

  /** The page loop stops at page `last`: page N, or an earlier page whose merge reached
      `count`. */
  predicate StopsAtFill(seller: Listing, known: set<Id>, count: int, pages: nat, last: int) {
    && 1 <= last <= Max(pages, 1)
    && (last < Max(pages, 1) ==> Merged(seller, known, last).Some? && |Merged(seller, known, last).value| >= count)
  }

  /** Where the page loop from page `k` stops: at the first page whose merge fills the
      running list, or at page N when none does. */
  lemma {:induction false} WalkPagesStopsAtFill(seller: Listing, url: string, count: int, known: set<Id>,
                                               k: nat, pages: nat, acc: seq<Id>)
    requires 2 <= k <= Max(pages, 1) + 1
    requires Merged(seller, known, Max(pages, 1)).Some?
    requires Merged(seller, known, k - 1) == Some(acc)
    ensures StopsAtFill(seller, known, count, pages, WalkPages(seller, url, count, known, k, pages, acc).last)
    decreases pages + 1 - k
  {
    if k <= pages {
      assert Merged(seller, known, k).Some? by {
        MergedGrows(seller, known, k, pages);
      }
      MergedStep(seller, known, k, acc);
      var acc' := Merged(seller, known, k).value;
      WalkPagesStep(seller, url, count, known, k, pages, acc, acc');
      if |acc'| < count {
        WalkPagesStopsAtFill(seller, url, count, known, k + 1, pages, acc');
      }
    } else {
      assert WalkPages(seller, url, count, known, k, pages, acc).last == k - 1 == Max(pages, 1);
    }
  }

  /** Every page the loop from page `k` fetches before its last one left the running
      list short of `count`. */
  lemma {:induction false} WalkPagesShortBefore(seller: Listing, url: string, count: int, known: set<Id>,
                                               k: nat, pages: nat, acc: seq<Id>)
    requires 2 <= k <= Max(pages, 1) + 1
    requires Merged(seller, known, Max(pages, 1)).Some?
    requires Merged(seller, known, k - 1) == Some(acc)
    requires |acc| < count
    ensures var last := WalkPages(seller, url, count, known, k, pages, acc).last;
      forall j | k - 1 <= j < last :: Merged(seller, known, j).Some? && |Merged(seller, known, j).value| < count
    decreases pages + 1 - k
  {
    var last := WalkPages(seller, url, count, known, k, pages, acc).last;
    if k <= pages {
      MergedGrows(seller, known, k, pages);
      MergedStep(seller, known, k, acc);
      var acc' := Merged(seller, known, k).value;
      WalkPagesStep(seller, url, count, known, k, pages, acc, acc');
      if |acc'| < count {
        WalkPagesShortBefore(seller, url, count, known, k + 1, pages, acc');
        forall j | k - 1 <= j < last
          ensures Merged(seller, known, j).Some? && |Merged(seller, known, j).value| < count
        {
          if j == k - 1 {
            assert Merged(seller, known, j) == Some(acc);
          }
        }
      } else {
        assert last == k;
        forall j | k - 1 <= j < last
          ensures Merged(seller, known, j).Some? && |Merged(seller, known, j).value| < count
        {
          assert j == k - 1;
        }
      }
    } else {
      assert last == k - 1;
    }
  }

  /** The pages the whole walk fetches: after the probe, pages 1..L in order, where L is
      the first page at which the merged list reaches `count`, or N when none does. */
  lemma {:induction false} DiscoverStopsEarly(seller: Listing, url: string, count: int, known: set<Id>)
    requires seller.total.Some?
    requires Merged(seller, known, Max(seller.total.value, 1)).Some?
    ensures var w := Discover(seller, url, count, known);
      var n := Max(seller.total.value, 1);
      var last := |w.log| - 1;
      && ListingLog(url, w.log)
      && 1 <= last <= n
      && (forall j | 1 <= j < last :: Merged(seller, known, j).Some? && |Merged(seller, known, j).value| < count)
      && (last < n ==> Merged(seller, known, last).Some? && |Merged(seller, known, last).value| >= count)
  {
    var pages := seller.total.value;
    MergedGrows(seller, known, 1, Max(pages, 1));
    var unseen := Merged(seller, known, 1).value;
    assert seller.ids(1).Some?;
    assert unseen == NewOnPage(seller.ids(1).value, known);
    DiscoverLast(seller, url, count, known);
    if |unseen| < count {
      WalkPagesStopsAtFill(seller, url, count, known, 2, pages, unseen);
      WalkPagesShortBefore(seller, url, count, known, 2, pages, unseen);
    }
  }

  /** The last page the walk fetches: page 1 when it alone has enough unseen ids, else
      the last page of the loop from page 2. */
  lemma {:induction false} DiscoverLast(seller: Listing, url: string, count: int, known: set<Id>)
    requires seller.total.Some? && seller.ids(1).Some?
    ensures var w := Discover(seller, url, count, known);
      var unseen := NewOnPage(seller.ids(1).value, known);
      && ListingLog(url, w.log)
      && (|unseen| >= count ==> |w.log| - 1 == 1)
      && (|unseen| < count ==> |w.log| - 1 == WalkPages(seller, url, count, known, 2, seller.total.value, unseen).last)
  {
  }

  /** When page 1 alone has enough unseen ids, only the probe and page 1 are fetched and
      the answer is its first `count` unseen ids; with `count == 0` the answer is empty. */
  lemma {:induction false} ShortCircuit(seller: Listing, url: string, count: int, known: set<Id>)
    requires seller.total.Some?
    requires seller.ids(1).Some?
    requires |NewOnPage(seller.ids(1).value, known)| >= count
    ensures var w := Discover(seller, url, count, known);
      && w.log == [Fetch(url, ""), Fetch(url, SELLER_PAGE_MARK)]
      && w.result == Success(Take(NewOnPage(seller.ids(1).value, known), count))
      && (count == 0 ==> w.result == Success([]))
  {
  }
}

=== FILE: extraction.dfy ===
/** The pure text pieces of the crawler in `core/utils.py`: the page-count token,
    the product id in a listing link, the price clean-up and the product URL.
    A regular-expression search that finds nothing makes the Python code fail
    on `None.group`; here it is `None`. */
module Extraction {
  import opened Wrappers
  import opened Text

  /** Prefix of every product page (`core/constants.py`). */
  const OZON_PRODUCT_URL := "https://www.ozon.ru/product/"
  /** The seller listing the API view crawls. */
  const OZON_SELLER_1_PRODUCTS := "https://www.ozon.ru/seller/1/products/"
  /** Wait marker of listing pages, and of detail pages in `core/utils.py`. */
  const SELLER_PAGE_MARK := "div.wi4"
  const DETAIL_PAGE_MARK := "div.aby9"
  /** Wait marker of detail pages in the background task. */
  const PRODUCT_PAGE_MARK := "span.kz1"
  /** The fixed text before the page count in the listing's embedded state. */
  const TOTAL_PAGES := "\"totalPages\":"

  // ---------------------------------------------------------------- count_pages

  /** `"totalPages":(\d+)` matches at `p`. */
  predicate PageCountAt(html: string, p: nat) {
    && p + |TOTAL_PAGES| < |html|
    && html[p..p + |TOTAL_PAGES|] == TOTAL_PAGES
    && IsDigit(html[p + |TOTAL_PAGES|])
  }

  /** The match at `p` is the leftmost one, the one `re.search` reports. */
  predicate FirstPageCountAt(html: string, p: nat) {
    PageCountAt(html, p) && forall q | 0 <= q < p :: !PageCountAt(html, q)
  }

  /** The number the greedy `(\d+)` captures after the marker at `p`. */
  function PageCountValue(html: string, p: nat): nat
    requires PageCountAt(html, p)
  {
    var d := p + |TOTAL_PAGES|;
    DigitsValue(html[d..RunEnd(html, d)])
  }

  function PageCountSearch(html: string, p: nat): (r: Option<nat>)
    requires p <= |html|
    requires forall q | 0 <= q < p :: !PageCountAt(html, q)
    ensures r.None? ==> forall q | 0 <= q < |html| :: !PageCountAt(html, q)
    ensures r.Some? ==> p <= r.value < |html| && FirstPageCountAt(html, r.value)
    decreases |html| - p
  {
    if p + |TOTAL_PAGES| >= |html| then None
    else if PageCountAt(html, p) then Some(p)
    else PageCountSearch(html, p + 1)
  }

  /** `count_pages`: the number after the first `"totalPages":` that a digit follows;
      `None` when there is no such place (the Python code then raises). */
  function CountPages(html: string): (r: Option<nat>)
    ensures r.None? <==> forall q | 0 <= q < |html| :: !PageCountAt(html, q)
    ensures r.Some? ==> exists q | 0 <= q < |html| :: FirstPageCountAt(html, q) && r.value == PageCountValue(html, q)
  {
    match PageCountSearch(html, 0)
    case None => None
    case Some(q) => Some(PageCountValue(html, q))
  }

  // ------------------------------------------------------- product id of a link

  /** `(\d+)/` matches at `p`: a digit starts there and the maximal run from it ends at a `/`.
      A shorter run would be followed by a digit, so backtracking cannot help. */
  predicate IdAt(href: string, p: nat) {
    && p < |href|
    && IsDigit(href[p])
    && RunEnd(href, p) < |href|
    && href[RunEnd(href, p)] == '/'
  }

  predicate FirstIdAt(href: string, p: nat) {
    IdAt(href, p) && forall q | 0 <= q < p :: !IdAt(href, q)
  }

  function IdValue(href: string, p: nat): nat
    requires IdAt(href, p)
  {
    DigitsValue(href[p..RunEnd(href, p)])
  }

  function IdSearch(href: string, p: nat): (r: Option<nat>)
    requires p <= |href|
    requires forall q | 0 <= q < p :: !IdAt(href, q)
    ensures r.None? ==> forall q | 0 <= q < |href| :: !IdAt(href, q)
    ensures r.Some? ==> p <= r.value < |href| && FirstIdAt(href, r.value)
    decreases |href| - p
  {
    if p == |href| then None
    else if IdAt(href, p) then Some(p)
    else IdSearch(href, p + 1)
  }

  /** The id `get_new_products_on_page` reads from an item link: the value of the
      first run of digits directly followed by `/`; `None` when there is none. */
  function ProductIdFromHref(href: string): (r: Option<nat>)
    ensures r.None? <==> forall q | 0 <= q < |href| :: !IdAt(href, q)
    ensures r.Some? ==> exists q | 0 <= q < |href| ::
      && FirstIdAt(href, q)
      && (q == 0 || !IsDigit(href[q - 1]))
      && r.value == IdValue(href, q)
  {
    match IdSearch(href, 0)
    case None => None
    case Some(q) =>
      LeftmostIdStartsRun(href, q);
      Some(IdValue(href, q))
  }

  /** The leftmost match begins a maximal run of digits: were the character before it a
      digit, the match would already begin there. */
  lemma {:induction false} LeftmostIdStartsRun(href: string, q: nat)
    requires FirstIdAt(href, q)
    ensures q == 0 || !IsDigit(href[q - 1])
  {
    if q > 0 && IsDigit(href[q - 1]) {
      RunEndStep(href, q - 1);
      assert IdAt(href, q - 1);
      assert false;
    }
  }

  // ----------------------------------------------------------------- get_price

  /** `''.join(text.split()[:-1])`: every token but the last (the currency sign), glued together. */
  function CleanPrice(text: string): (r: string)
    ensures NoSpace(r)
    ensures |Split(text)| <= 1 ==> r == []
    ensures |Split(text)| >= 1 ==> r + Split(text)[|Split(text)| - 1] == RemoveSpaces(text)
  {
    var tokens := Split(text);
    if |tokens| == 0 then []
    else
      var kept := tokens[..|tokens| - 1];
      CleanPriceKeepsAllButLast(text);
      CleanPriceNoSpace(text);
      Concat(kept)
  }

  /** An amount, a blank and a currency word: the price is the amount with its blanks
      removed, so `"1 234 ₽"` gives `"1234"`. */
  lemma {:induction false} CleanPriceDropsCurrency(amount: string, c: char, currency: string)
    requires IsSpace(c) && IsWord(currency)
    ensures CleanPrice(amount + [c] + currency) == RemoveSpaces(amount)
  {
    var tokens := Split(amount + [c] + currency);
    assert tokens == Split(amount) + [currency] by {
      SplitAtBlank(amount, c, currency);
      SplitOfWord(currency);
    }
    assert tokens[..|tokens| - 1] == Split(amount);
    SplitKeepsEveryNonBlank(amount);
  }

  lemma {:induction false} CleanPriceNoSpace(text: string)
    requires |Split(text)| >= 1
    ensures var tokens := Split(text);
      NoSpace(Concat(tokens[..|tokens| - 1]))
  {
    var tokens := Split(text);
    ConcatOfWords(tokens[..|tokens| - 1]);
  }

  lemma {:induction false} CleanPriceKeepsAllButLast(text: string)
    requires |Split(text)| >= 1
    ensures var tokens := Split(text);
      Concat(tokens[..|tokens| - 1]) + tokens[|tokens| - 1] == RemoveSpaces(text)
  {
    ConcatDropLast(Split(text));
    SplitKeepsEveryNonBlank(text);
  }

  lemma {:induction false} ConcatDropLast(ts: seq<string>)
    requires |ts| >= 1
    ensures Concat(ts[..|ts| - 1]) + ts[|ts| - 1] == Concat(ts)
  {
    var kept := ts[..|ts| - 1];
    var last := ts[|ts| - 1];
    assert ts == kept + [last];
    ConcatSnoc(kept, last);
  }

  lemma {:induction false} ConcatOfWords(ws: seq<string>)
    requires forall k | 0 <= k < |ws| :: IsWord(ws[k])
    ensures NoSpace(Concat(ws))
    decreases |ws|
  {
    if ws != [] {
      ConcatOfWords(ws[1..]);
      assert NoSpace(ws[0]);
    }
  }

  // ---------------------------------------------------------- get_ozon_product_url

  /** `get_ozon_product_url`: the fixed product prefix followed by `str(product_id)`. */
  function ProductUrl(id: int): (r: string)
  {
    OZON_PRODUCT_URL + IntToDecimal(id)
  }

  /** Different products get different URLs. */
  lemma {:induction false} ProductUrlInjective(a: int, b: int)
    ensures ProductUrl(a) == ProductUrl(b) ==> a == b
  {
    if ProductUrl(a) == ProductUrl(b) {
      assert ProductUrl(a)[|OZON_PRODUCT_URL|..] == IntToDecimal(a);
      assert ProductUrl(b)[|OZON_PRODUCT_URL|..] == IntToDecimal(b);
      IntToDecimalInjective(a, b);
    }
  }

  /** The end of a run is where its digits stop. */
  lemma {:induction false} RunEndIsFirstNonDigit(s: string, i: nat, j: nat)
    requires i <= j <= |s|
    requires AllDigits(s[i..j])
    requires j == |s| || !IsDigit(s[j])
    ensures RunEnd(s, i) == j
    decreases j - i
  {
    if i < j {
      assert IsDigit(s[i..j][0]);
      assert s[i + 1..j] == s[i..j][1..];
      RunEndIsFirstNonDigit(s, i + 1, j);
    }
  }

  /** The extractor answers with the value at the leftmost match, wherever that is. */
  lemma {:induction false} ProductIdFromFirst(href: string, p: nat)
    requires FirstIdAt(href, p)
    ensures ProductIdFromHref(href) == Some(IdValue(href, p))
  {
    var r := ProductIdFromHref(href);
    var q :| 0 <= q < |href| && FirstIdAt(href, q) && r.value == IdValue(href, q);
    assert !(q < p) && !(p < q);
  }

  /** A run of digits at `p`, after no digit at all and ending at a `/`, is the
      leftmost match. */
  lemma {:induction false} IdAfterDigitFree(href: string, p: nat, e: nat)
    requires p < e < |href| && href[e] == '/'
    requires forall i | 0 <= i < p :: !IsDigit(href[i])
    requires AllDigits(href[p..e])
    ensures FirstIdAt(href, p) && RunEnd(href, p) == e
  {
    RunEndIsFirstNonDigit(href, p, e);
    assert IsDigit(href[p..e][0]);
    forall q | 0 <= q < p
      ensures !IdAt(href, q)
    {
      assert !IsDigit(href[q]);
    }
  }

  /** Where the pieces of `href = pre + d + "/" + rest` lie: the digit-free prefix, the
      digits, then the `/`. */
  lemma {:induction false} HrefPieces(href: string, pre: string, d: string, rest: string)
    requires href == pre + d + "/" + rest
    requires forall i | 0 <= i < |pre| :: !IsDigit(pre[i])
    ensures |pre| + |d| < |href| && href[|pre| + |d|] == '/'
    ensures forall i | 0 <= i < |pre| :: !IsDigit(href[i])
    ensures forall i | |pre| <= i < |pre| + |d| :: href[i] == d[i - |pre|]
  {
    assert href == pre + (d + ("/" + rest));
    forall i | 0 <= i < |pre|
      ensures !IsDigit(href[i])
    {
      assert href[i] == pre[i];
    }
  }

  /** After a digit-free prefix, the extractor reads the digits that follow it. */
  lemma {:induction false} FirstIdAfterPrefix(pre: string, d: string, rest: string)
    requires forall i | 0 <= i < |pre| :: !IsDigit(pre[i])
    requires |d| >= 1 && AllDigits(d)
    ensures ProductIdFromHref(pre + d + "/" + rest) == Some(DigitsValue(d))
  {
    HrefIdPiece(pre, d, rest);
    IdAfterDigitFreeValue(pre + d + "/" + rest, |pre|, |pre| + |d|, d);
  }

  /** The digits `d` lie at `p..e` of `href`, after no digit at all and before a `/`. */
  predicate IdPiece(href: string, p: nat, e: nat, d: string) {
    && p < e < |href| && href[e] == '/'
    && (forall i | 0 <= i < p :: !IsDigit(href[i]))
    && |d| == e - p && (forall i | p <= i < e :: href[i] == d[i - p])
    && AllDigits(d)
  }

  lemma {:induction false} HrefIdPiece(pre: string, d: string, rest: string)
    requires forall i | 0 <= i < |pre| :: !IsDigit(pre[i])
    requires |d| >= 1 && AllDigits(d)
    ensures IdPiece(pre + d + "/" + rest, |pre|, |pre| + |d|, d)
  {
    HrefPieces(pre + d + "/" + rest, pre, d, rest);
  }

  /** The value the extractor reads from a run of digits at `p`, after no digit at all
      and ending at a `/`. */
  lemma {:induction false} IdAfterDigitFreeValue(href: string, p: nat, e: nat, d: string)
    requires IdPiece(href, p, e, d)
    ensures ProductIdFromHref(href) == Some(DigitsValue(d))
  {
    assert href[p..e] == d;
    IdAfterDigitFree(href, p, e);
    ProductIdFromFirst(href, p);
  }

  lemma {:induction false} ProductPrefixHasNoDigit()
    ensures forall i | 0 <= i < |OZON_PRODUCT_URL| :: !IsDigit(OZON_PRODUCT_URL[i])
  {
  }

  /** The link extractor recovers the id from a product URL followed by `/`,
      whatever comes after it. */
  lemma {:induction false} ProductUrlIdRoundTrip(n: nat, rest: string)
    ensures ProductIdFromHref(ProductUrl(n) + "/" + rest) == Some(n)
  {
    ProductPrefixHasNoDigit();
    FirstIdAfterPrefix(OZON_PRODUCT_URL, NatToDecimal(n), rest);
    DecimalRoundTrip(n);
  }
}

=== FILE: ingestion.dfy ===
/** The two ingestion loops over the ids the walk discovered.

    `parse_ozon_seller` in `core/utils.py` fetches each product page, validates the
    record against the table as it stands and saves it at once; the first invalid record
    ends the run with one message and status 400, leaving the driver open.

    The background task in `core/tasks.py` fetches and judges every record, sends one
    message per rejected record, keeps the accepted ones in order, closes the driver,
    creates them all in one bulk insert and sends one final message. How it builds a
    record (`get_product`) is not part of this model: it is the `Judge` oracle.

    Each run is recorded as a sequence of events: fetches, saves, messages sent,
    closing the driver and bulk inserts. */
module Ingestion {
  import opened Wrappers
  import opened Extraction
  import opened Browser
  import opened Discovery
  import opened Records
  import opened Storage

  datatype Message =
    | StoppedEarly(saved: nat, errors: Errors)    // utils: run ended at a rejected record
    | Finished(reported: int)                     // both: every record accepted
    | RecordRejected(rejected: Errors)            // task: one rejected record
    | FinishedPartially(kept: seq<Product>)       // task: some record was rejected

  datatype Event =
    | Fetched(fetch: Fetch)
    | Saved(row: Row)
    | Sent(message: Message)
    | DriverClosed
    | BulkCreated(products: seq<Product>)

  /** The messages sent, in order. */
  function Messages(events: seq<Event>): (m: seq<Message>)
    ensures |m| <= |events|
    decreases |events|
  {
    if events == [] then []
    else (if events[0].Sent? then [events[0].message] else []) + Messages(events[1..])
  }

  lemma {:induction false} MessagesAppend(a: seq<Event>, b: seq<Event>)
    ensures Messages(a + b) == Messages(a) + Messages(b)
    decreases |a|
  {
    if a == [] {
      assert a + b == b;
    } else {
      var c := a + b;
      assert c != [] && c[0] == a[0];
      assert c[1..] == a[1..] + b;
      MessagesAppend(a[1..], b);
      var h := if a[0].Sent? then [a[0].message] else [];
      assert Messages(c) == h + Messages(a[1..] + b);
      assert Messages(a) == h + Messages(a[1..]);
    }
  }

  function FetchEvents(log: seq<Fetch>): (e: seq<Event>)
    ensures |e| == |log| && forall i | 0 <= i < |log| :: e[i] == Fetched(log[i])
  {
    seq(|log|, i requires 0 <= i < |log| => Fetched(log[i]))
  }

  lemma {:induction false} NoMessageInFetches(log: seq<Fetch>)
    ensures Messages(FetchEvents(log)) == []
  {
    var e := FetchEvents(log);
    if log != [] {
      assert e[1..] == FetchEvents(log[1..]);
      NoMessageInFetches(log[1..]);
    }
  }

  // ------------------------------------------------- parse_ozon_seller (utils)

  /** The product page fetch of `core/utils.py`. */
  function DetailFetch(id: Id): Fetch {
    ProductPage(id, DETAIL_PAGE_MARK)
  }

  /** The serializer input the crawler builds from a product page: the getters'
      results, the cleaned price text, the id and the crawl moment. */
  function DetailData(f: Fields, id: Id, date: int): (d: Data)
    ensures OzonId in d && d[OzonId] == Int(id)
  {
    map[
      Name := OptionalValue(f.name),
      ImageUrl := OptionalValue(f.imageUrl),
      Price := OptionalValue(if f.priceText.Some? then Some(CleanPrice(f.priceText.value)) else None),
      Discount := OptionalValue(f.discount),
      Description := OptionalValue(f.description),
      OzonId := Int(id),
      RequestDate := Moment(date)]
  }

  datatype Status = Created | BadRequest | Crashed(error: WalkError)

  /** The end of a run: its status, what it did, and the table afterwards. */
  datatype Outcome = Outcome(status: Status, events: seq<Event>, table: Table)

  /** The record the run validates for `id`, against the table `t` as it stands. */
  function Check(site: Site, id: Id, t: Table, date: int, isUrl: string -> bool): Result<Product, Errors> {
    Validate(DetailData(site(DetailFetch(id)).fields, id, date), StoredIds(t), isUrl)
  }

  /** The crawl moment passed along in the input never changes what the serializer
      decides for a record. */
  lemma {:induction false} CheckIgnoresDate(site: Site, id: Id, t: Table, date1: int, date2: int, isUrl: string -> bool)
    ensures Check(site, id, t, date1, isUrl) == Check(site, id, t, date2, isUrl)
  {
    var f := site(DetailFetch(id)).fields;
    var d1, d2 := DetailData(f, id, date1), DetailData(f, id, date2);
    assert d1 == d2[RequestDate := Moment(date1)];
    assert d2 == d2[RequestDate := Moment(date2)];
    RequestDateIgnored(d2, Moment(date1), StoredIds(t), isUrl);
    RequestDateIgnored(d2, Moment(date2), StoredIds(t), isUrl);
  }

  /** How the loop judges the record of an id against the table as it stands. */
  type Checker = (Id, Table) -> Result<Product, Errors>

  /** The checker of `parse_ozon_seller`: fetch the page, build the input, validate. */
  function Checks(site: Site, date: int, isUrl: string -> bool): Checker {
    (id, t) => Check(site, id, t, date, isUrl)
  }

  /** What the loop relies on from its checker: an accepted record carries the id it was
      fetched for, and that id is not in the table yet. */
  ghost predicate Guards(check: Checker) {
    forall id, t | check(id, t).Success? :: check(id, t).value.ozonId == id && id !in StoredIds(t)
  }

  /** The serializer guards the loop: `unique=True` refuses stored ids, and the id is
      the one the crawler put into the input. */
  lemma {:induction false} ChecksGuard(site: Site, date: int, isUrl: string -> bool)
    ensures Guards(Checks(site, date, isUrl))
  {
    var check := Checks(site, date, isUrl);
    forall id, t | check(id, t).Success?
      ensures check(id, t).value.ozonId == id && id !in StoredIds(t)
    {
      var data := DetailData(site(DetailFetch(id)).fields, id, date);
      ValidateSound(data, StoredIds(t), isUrl);
      ValidateKeepsId(data, StoredIds(t), isUrl, id);
    }
  }

  /** The loop of `parse_ozon_seller`, with `saved` records saved so far. */
  function SaveEach(check: Checker, ids: seq<Id>, count: int, t: Table, date: int, saved: nat): (o: Outcome)
    ensures o.status != Created ==> o.status == BadRequest
    ensures |t| <= |o.table| <= |t| + |ids| && o.table[..|t|] == t
    ensures |o.events| == 2 * (|o.table| - |t|) + 2
    decreases |ids|
  {
    if ids == [] then Outcome(Created, [DriverClosed, Sent(Finished(count))], t)
    else
      var f := DetailFetch(ids[0]);
      match check(ids[0], t)
      case Failure(e) => Outcome(BadRequest, [Fetched(f), Sent(StoppedEarly(saved, e))], t)
      case Success(p) =>
        var row := Save(p, date).value;
        var rest := SaveEach(check, ids[1..], count, t + [row], date, saved + 1);
        assert rest.table[..|t|] == (t + [row])[..|t|];
        Outcome(rest.status, [Fetched(f), Saved(row)] + rest.events, rest.table)
  }

  /** `parse_ozon_seller(url, products_count)` of `core/utils.py`, on a table `t`, with the
      crawl moment `date`. A failed walk ends the run before any product page. */
  function ParseSeller(site: Site, url: string, count: int, t: Table, date: int,
                       isUrl: string -> bool): (o: Outcome)
    ensures o.status.Crashed? ==> o.table == t && Discover(SiteListing(site, url), url, count, StoredIds(t)).result.Failure?
  {
    var w := Discover(SiteListing(site, url), url, count, StoredIds(t));
    match w.result
    case Failure(e) => Outcome(Crashed(e), FetchEvents(w.log), t)
    case Success(ids) =>
      var o := SaveEach(Checks(site, date, isUrl), ids, count, t, date, 0);
      Outcome(o.status, FetchEvents(w.log) + o.events, o.table)
  }

  /** One accepted record: the run goes on with that row appended, after its page fetch
      and its save. */
  lemma {:induction false} SaveEachAccepts(check: Checker, ids: seq<Id>, count: int, t: Table, date: int, saved: nat)
    requires ids != [] && check(ids[0], t).Success?
    ensures var row := Row(check(ids[0], t).value, date);
      var rest := SaveEach(check, ids[1..], count, t + [row], date, saved + 1);
      SaveEach(check, ids, count, t, date, saved)
        == Outcome(rest.status, [Fetched(DetailFetch(ids[0])), Saved(row)] + rest.events, rest.table)
  {
  }

  /** The `i`-th new row is the `i`-th id's record, accepted against the table holding
      the rows before it, and stamped with the crawl moment. */
  lemma {:induction false} SaveEachRowAt(check: Checker, ids: seq<Id>, count: int, t: Table, date: int, saved: nat,
                                        i: nat)
    requires i < |SaveEach(check, ids, count, t, date, saved).table| - |t|
    ensures var o := SaveEach(check, ids, count, t, date, saved);
      && check(ids[i], o.table[..|t| + i]) == Success(o.table[|t| + i].product)
      && o.table[|t| + i].requestDate == date
    decreases i
  {
    var o := SaveEach(check, ids, count, t, date, saved);
    assert ids != [] && check(ids[0], t).Success?;
    var p := check(ids[0], t).value;
    var t1 := t + [Row(p, date)];
    var rest := SaveEach(check, ids[1..], count, t1, date, saved + 1);
    SaveEachAccepts(check, ids, count, t, date, saved);
    assert o.table == rest.table;
    if i == 0 {
      assert o.table[..|t|] == t;
      assert o.table[|t|] == t1[|t|];
    } else {
      SaveEachRowAt(check, ids[1..], count, t1, date, saved + 1, i - 1);
      assert ids[i] == ids[1..][i - 1];
      assert |t| + i == |t1| + (i - 1);
    }
  }

  /** Every row `table` adds to `t` is its id's record, accepted against the table
      holding the rows before it, and stamped with the crawl moment. */
  predicate AcceptedInOrder(check: Checker, ids: seq<Id>, t: Table, table: Table, date: int) {
    && |t| <= |table| <= |t| + |ids|
    && forall i | 0 <= i < |table| - |t| ::
         && check(ids[i], table[..|t| + i]) == Success(table[|t| + i].product)
         && table[|t| + i].requestDate == date
  }

  /** Record by record: every new row is its id's record, accepted against the table
      holding the rows before it, and stamped with the crawl moment. */
  lemma {:induction false} SaveEachRows(check: Checker, ids: seq<Id>, count: int, t: Table, date: int, saved: nat)
    ensures AcceptedInOrder(check, ids, t, SaveEach(check, ids, count, t, date, saved).table, date)
  {
    var o := SaveEach(check, ids, count, t, date, saved);
    forall i | 0 <= i < |o.table| - |t|
      ensures check(ids[i], o.table[..|t| + i]) == Success(o.table[|t| + i].product)
      ensures o.table[|t| + i].requestDate == date
    {
      SaveEachRowAt(check, ids, count, t, date, saved, i);
    }
    assert AcceptedInOrder(check, ids, t, o.table, date);
  }

  /** The `i`-th pair of events: the `i`-th saved row's page fetch, then its save. */
  lemma {:induction false} SaveEachPairAt(check: Checker, ids: seq<Id>, count: int, t: Table, date: int, saved: nat,
                                         i: nat)
    requires i < |SaveEach(check, ids, count, t, date, saved).table| - |t|
    ensures var o := SaveEach(check, ids, count, t, date, saved);
      && o.events[2 * i] == Fetched(DetailFetch(ids[i]))
      && o.events[2 * i + 1] == Saved(o.table[|t| + i])
    decreases i
  {
    var o := SaveEach(check, ids, count, t, date, saved);
    assert ids != [] && check(ids[0], t).Success?;
    var p := check(ids[0], t).value;
    var t1 := t + [Row(p, date)];
    var rest := SaveEach(check, ids[1..], count, t1, date, saved + 1);
    SaveEachAccepts(check, ids, count, t, date, saved);
    if i == 0 {
      assert o.table[|t|] == t1[|t|];
    } else {
      SaveEachPairAt(check, ids[1..], count, t1, date, saved + 1, i - 1);
      assert ids[i] == ids[1..][i - 1];
      assert o.events[2 * i] == rest.events[2 * (i - 1)];
      assert o.events[2 * i + 1] == rest.events[2 * (i - 1) + 1];
    }
  }

  /** The events come in pairs, one per saved row: its page fetch, then its save. */
  lemma {:induction false} SaveEachPairs(check: Checker, ids: seq<Id>, count: int, t: Table, date: int, saved: nat)
    ensures var o := SaveEach(check, ids, count, t, date, saved);
      forall i | 0 <= i < |o.table| - |t| ::
        && o.events[2 * i] == Fetched(DetailFetch(ids[i]))
        && o.events[2 * i + 1] == Saved(o.table[|t| + i])
  {
    var o := SaveEach(check, ids, count, t, date, saved);
    forall i | 0 <= i < |o.table| - |t|
      ensures o.events[2 * i] == Fetched(DetailFetch(ids[i]))
      ensures o.events[2 * i + 1] == Saved(o.table[|t| + i])
    {
      SaveEachPairAt(check, ids, count, t, date, saved, i);
    }
  }

  /** The loop ends with every record saved (status 201), or at the first rejected
      record (status 400). */
  lemma {:induction false} SaveEachStatus(check: Checker, ids: seq<Id>, count: int, t: Table, date: int, saved: nat)
    ensures var o := SaveEach(check, ids, count, t, date, saved);
      var k := |o.table| - |t|;
      && (o.status == Created <==> k == |ids|)
      && (o.status == BadRequest ==> check(ids[k], o.table).Failure?)
    decreases |ids|
  {
    if ids != [] && check(ids[0], t).Success? {
      var p := check(ids[0], t).value;
      var t1 := t + [Row(p, date)];
      var o := SaveEach(check, ids, count, t, date, saved);
      SaveEachAccepts(check, ids, count, t, date, saved);
      SaveEachStatus(check, ids[1..], count, t1, date, saved + 1);
      var k := |o.table| - |t|;
      if o.status == BadRequest {
        assert ids[k] == ids[1..][k - 1];
      }
    }
  }

  /** After the saved pairs of a complete run (the last two of its events): the driver
      closed, then one message reporting the requested count (not the number found). */
  lemma {:induction false} SaveEachFinishes(check: Checker, ids: seq<Id>, count: int, t: Table, date: int, saved: nat)
    ensures var o := SaveEach(check, ids, count, t, date, saved);
      var k := |o.table| - |t|;
      o.status == Created ==> o.events[2 * k] == DriverClosed && o.events[2 * k + 1] == Sent(Finished(count))
    decreases |ids|
  {
    if ids != [] && check(ids[0], t).Success? {
      var p := check(ids[0], t).value;
      var t1 := t + [Row(p, date)];
      var o := SaveEach(check, ids, count, t, date, saved);
      var rest := SaveEach(check, ids[1..], count, t1, date, saved + 1);
      SaveEachAccepts(check, ids, count, t, date, saved);
      SaveEachFinishes(check, ids[1..], count, t1, date, saved + 1);
      var k := |o.table| - |t|;
      assert o.events[2 * k] == rest.events[2 * (k - 1)];
      assert o.events[2 * k + 1] == rest.events[2 * (k - 1) + 1];
    }
  }

  /** After the saved pairs of a run that stops (the last two of its events): the
      rejected record's page fetch, then one message naming the records saved so far
      and the errors. */
  predicate StopsAtRejected(check: Checker, ids: seq<Id>, t: Table, saved: nat, o: Outcome) {
    var k := |o.table| - |t|;
    o.status == BadRequest ==>
      && 0 <= k < |ids| && 2 * k + 1 < |o.events|
      && check(ids[k], o.table).Failure?
      && o.events[2 * k] == Fetched(DetailFetch(ids[k]))
      && o.events[2 * k + 1] == Sent(StoppedEarly(saved + k, check(ids[k], o.table).error))
  }

  /** An accepted record shifts the place of the stop by one record and two events. */
  lemma {:induction false} StopsAtRejectedShift(check: Checker, ids: seq<Id>, t: Table, row: Row, saved: nat,
                             head: seq<Event>, rest: Outcome, o: Outcome)
    requires ids != [] && |head| == 2
    requires o == Outcome(rest.status, head + rest.events, rest.table)
    requires StopsAtRejected(check, ids[1..], t + [row], saved + 1, rest)
    ensures StopsAtRejected(check, ids, t, saved, o)
  {
    if o.status == BadRequest {
      var k := |o.table| - |t|;
      assert ids[k] == ids[1..][k - 1];
      assert o.events[2 * k] == rest.events[2 * (k - 1)];
      assert o.events[2 * k + 1] == rest.events[2 * (k - 1) + 1];
    }
  }

  lemma {:induction false} SaveEachStops(check: Checker, ids: seq<Id>, count: int, t: Table, date: int, saved: nat)
    ensures StopsAtRejected(check, ids, t, saved, SaveEach(check, ids, count, t, date, saved))
    decreases |ids|
  {
    if ids != [] && check(ids[0], t).Success? {
      var row := Row(check(ids[0], t).value, date);
      var rest := SaveEach(check, ids[1..], count, t + [row], date, saved + 1);
      var head := [Fetched(DetailFetch(ids[0])), Saved(row)];
      SaveEachAccepts(check, ids, count, t, date, saved);
      SaveEachStops(check, ids[1..], count, t + [row], date, saved + 1);
      StopsAtRejectedShift(check, ids, t, row, saved, head, rest, SaveEach(check, ids, count, t, date, saved));
    } else if ids != [] {
      var e := check(ids[0], t).error;
      assert SaveEach(check, ids, count, t, date, saved)
        == Outcome(BadRequest, [Fetched(DetailFetch(ids[0])), Sent(StoppedEarly(saved, e))], t);
    }
  }

  /** Exactly one message either way, and a run that stops at a rejected record leaves
      the driver open. */
  lemma {:induction false} SaveEachMessages(check: Checker, ids: seq<Id>, count: int, t: Table, date: int, saved: nat)
    ensures var o := SaveEach(check, ids, count, t, date, saved);
      && |Messages(o.events)| == 1
      && (o.status == BadRequest ==> DriverClosed !in o.events)
    decreases |ids|
  {
    var o := SaveEach(check, ids, count, t, date, saved);
    if ids == [] {
      assert Messages(o.events) == [Finished(count)];
    } else if check(ids[0], t).Failure? {
      assert Messages(o.events) == [StoppedEarly(saved, check(ids[0], t).error)];
    } else {
      var p := check(ids[0], t).value;
      var t1 := t + [Row(p, date)];
      var rest := SaveEach(check, ids[1..], count, t1, date, saved + 1);
      SaveEachAccepts(check, ids, count, t, date, saved);
      SaveEachMessages(check, ids[1..], count, t1, date, saved + 1);
      var head := [Fetched(DetailFetch(ids[0])), Saved(Row(p, date))];
      MessagesAppend(head, rest.events);
      assert Messages(head) == [];
    }
  }

  /** The table keeps `ozon_id` unique: each record is checked against every row saved
      before it, earlier rows of the same run included. */
  lemma {:induction false} SaveEachKeepsUnique(check: Checker, ids: seq<Id>, count: int, t: Table, date: int, saved: nat)
    requires Guards(check)
    requires UniqueIds(t)
    ensures UniqueIds(SaveEach(check, ids, count, t, date, saved).table)
    decreases |ids|
  {
    if ids != [] && check(ids[0], t).Success? {
      var p := check(ids[0], t).value;
      var t1 := t + [Row(p, date)];
      var id := ids[0];
      assert check(id, t).Success?;
      assert p.ozonId !in StoredIds(t);
      forall i, j | 0 <= i < j < |t1|
        ensures t1[i].product.ozonId != t1[j].product.ozonId
      {
        if j == |t| {
          assert t[i] in t;
          assert t[i].product.ozonId in StoredIds(t);
        }
      }
      SaveEachAccepts(check, ids, count, t, date, saved);
      SaveEachKeepsUnique(check, ids[1..], count, t1, date, saved + 1);
    }
  }

  /** The `i`-th saved row is the product of the `i`-th discovered id. */
  lemma {:induction false} SavedRowIds(check: Checker, ids: seq<Id>, count: int, t: Table, date: int, saved: nat)
    requires Guards(check)
    ensures var o := SaveEach(check, ids, count, t, date, saved);
      forall i | 0 <= i < |o.table| - |t| :: o.table[|t| + i].product.ozonId == ids[i]
  {
    var o := SaveEach(check, ids, count, t, date, saved);
    SaveEachRows(check, ids, count, t, date, saved);
    forall i | 0 <= i < |o.table| - |t|
      ensures o.table[|t| + i].product.ozonId == ids[i]
    {
      assert check(ids[i], o.table[..|t| + i]).Success?;
    }
  }

  /** A run of `parse_ozon_seller` keeps `ozon_id` unique in the table. */
  lemma {:induction false} ParseSellerKeepsUnique(site: Site, url: string, count: int, t: Table, date: int, isUrl: string -> bool)
    requires UniqueIds(t)
    ensures UniqueIds(ParseSeller(site, url, count, t, date, isUrl).table)
  {
    var w := Discover(SiteListing(site, url), url, count, StoredIds(t));
    if w.result.Success? {
      ChecksGuard(site, date, isUrl);
      SaveEachKeepsUnique(Checks(site, date, isUrl), w.result.value, count, t, date, 0);
    }
  }

  /** A run only appends: at most `products_count` new rows, none of them for an id the
      table held before, each stamped with the crawl moment. */
  lemma {:induction false} ParseSellerAppends(site: Site, url: string, count: int, t: Table, date: int, isUrl: string -> bool)
    requires 0 <= count
    ensures var o := ParseSeller(site, url, count, t, date, isUrl);
      && |t| <= |o.table| <= |t| + count
      && o.table[..|t|] == t
      && forall i | |t| <= i < |o.table| :: o.table[i].product.ozonId !in StoredIds(t) && o.table[i].requestDate == date
  {
    var w := Discover(SiteListing(site, url), url, count, StoredIds(t));
    var o := ParseSeller(site, url, count, t, date, isUrl);
    if w.result.Success? {
      var ids := w.result.value;
      var check := Checks(site, date, isUrl);
      DiscoverSafe(SiteListing(site, url), url, count, StoredIds(t));
      ChecksGuard(site, date, isUrl);
      SaveEachRows(check, ids, count, t, date, 0);
      SavedRowIds(check, ids, count, t, date, 0);
      forall i | |t| <= i < |o.table|
        ensures o.table[i].product.ozonId !in StoredIds(t) && o.table[i].requestDate == date
      {
        assert ids[i - |t|] in ids;
      }
    }
  }

  /** A run whose walk fails sends nothing; any other run sends exactly one message. */
  lemma {:induction false} ParseSellerMessages(site: Site, url: string, count: int, t: Table, date: int, isUrl: string -> bool)
    ensures var o := ParseSeller(site, url, count, t, date, isUrl);
      |Messages(o.events)| == if o.status.Crashed? then 0 else 1
  {
    var w := Discover(SiteListing(site, url), url, count, StoredIds(t));
    NoMessageInFetches(w.log);
    if w.result.Success? {
      var o := SaveEach(Checks(site, date, isUrl), w.result.value, count, t, date, 0);
      SaveEachMessages(Checks(site, date, isUrl), w.result.value, count, t, date, 0);
      MessagesAppend(FetchEvents(w.log), o.events);
    }
  }

  // ---------------------------------------------------------- the background task

  /** How the task's record builder judges a product page: the record, or the errors. */
  type Judge = (Document, Id) -> Result<Product, Errors>

  /** The product page fetch of `core/tasks.py`. */
  function TaskFetch(id: Id): Fetch {
    ProductPage(id, PRODUCT_PAGE_MARK)
  }

  function Judged(site: Site, judge: Judge, id: Id): Result<Product, Errors> {
    judge(site(TaskFetch(id)), id)
  }

  /** Reference: the accepted records, in the order of their ids. */
  function Accepted(site: Site, judge: Judge, ids: seq<Id>): (r: seq<Product>)
    ensures |r| <= |ids|
    decreases |ids|
  {
    if ids == [] then []
    else
      var last := ids[|ids| - 1];
      Accepted(site, judge, ids[..|ids| - 1])
      + (match Judged(site, judge, last) case Success(p) => [p] case Failure(_) => [])
  }

  /** Reference: what one turn of the loop does for `id`. */
  function TaskStep(site: Site, judge: Judge, id: Id): seq<Event> {
    [Fetched(TaskFetch(id))]
    + (match Judged(site, judge, id) case Failure(e) => [Sent(RecordRejected(e))] case Success(_) => [])
  }

  function TaskSteps(site: Site, judge: Judge, ids: seq<Id>): seq<Event>
    decreases |ids|
  {
    if ids == [] then []
    else TaskSteps(site, judge, ids[..|ids| - 1]) + TaskStep(site, judge, ids[|ids| - 1])
  }

  /** Reference: some record among `ids` was rejected. */
  predicate SomeRejected(site: Site, judge: Judge, ids: seq<Id>)
    decreases |ids|
  {
    ids != [] && (SomeRejected(site, judge, ids[..|ids| - 1]) || Judged(site, judge, ids[|ids| - 1]).Failure?)
  }

  /** The final message: chosen by whether a record was rejected. */
  function FinalMessage(problems: bool, saved: seq<Product>, count: int): Message {
    if problems then FinishedPartially(saved) else Finished(count)
  }

  /** Growing the prefix of the ids by one id extends each reference by that id's turn. */
  lemma {:induction false} Snoc(site: Site, judge: Judge, ids: seq<Id>, i: nat)
    requires i < |ids|
    ensures Accepted(site, judge, ids[..i + 1]) == Accepted(site, judge, ids[..i])
      + (match Judged(site, judge, ids[i]) case Success(p) => [p] case Failure(_) => [])
    ensures TaskSteps(site, judge, ids[..i + 1]) == TaskSteps(site, judge, ids[..i]) + TaskStep(site, judge, ids[i])
    ensures SomeRejected(site, judge, ids[..i + 1])
      <==> SomeRejected(site, judge, ids[..i]) || Judged(site, judge, ids[i]).Failure?
  {
    assert ids[..i + 1][..i] == ids[..i];
  }

  /** A record was rejected exactly when fewer records were accepted than ids given; and
      that is when some id's record is a failure. */
  lemma {:induction false} SomeRejectedIff(site: Site, judge: Judge, ids: seq<Id>)
    ensures SomeRejected(site, judge, ids) <==> |Accepted(site, judge, ids)| < |ids|
    ensures SomeRejected(site, judge, ids) <==> exists i | 0 <= i < |ids| :: Judged(site, judge, ids[i]).Failure?
    decreases |ids|
  {
    if ids != [] {
      var init := ids[..|ids| - 1];
      SomeRejectedIff(site, judge, init);
      if exists i | 0 <= i < |init| :: Judged(site, judge, init[i]).Failure? {
        var i :| 0 <= i < |init| && Judged(site, judge, init[i]).Failure?;
        assert ids[i] == init[i];
      }
      if exists i | 0 <= i < |ids| :: Judged(site, judge, ids[i]).Failure? {
        var i :| 0 <= i < |ids| && Judged(site, judge, ids[i]).Failure?;
        if i < |init| {
          assert init[i] == ids[i];
        }
      }
    }
  }

  /** The task's loop and what follows it, for the discovered ids `ids`. */
  method RunTask(site: Site, judge: Judge, ids: seq<Id>, count: int)
    returns (events: seq<Event>, saved: seq<Product>, success: nat, problems: bool)
    ensures saved == Accepted(site, judge, ids)
    ensures success == |saved|
    ensures problems <==> SomeRejected(site, judge, ids)
    ensures events == TaskRun(site, judge, ids, count)
  {
    events := [];
    saved := [];
    success := 0;
    problems := false;
    var i := 0;
    while i < |ids|
      invariant 0 <= i <= |ids|
      invariant saved == Accepted(site, judge, ids[..i])
      invariant success == |saved|
      invariant problems <==> SomeRejected(site, judge, ids[..i])
      invariant events == TaskSteps(site, judge, ids[..i])
    {
      var id := ids[i];
      Snoc(site, judge, ids, i);
      events := events + [Fetched(TaskFetch(id))];
      var r := judge(site(TaskFetch(id)), id);
      match r {
        case Failure(e) =>
          events := events + [Sent(RecordRejected(e))];
          problems := true;
        case Success(p) =>
          success := success + 1;
          saved := saved + [p];
      }
      i := i + 1;
    }
    assert ids[..i] == ids;
    events := events + [DriverClosed, BulkCreated(saved), Sent(FinalMessage(problems, saved, count))];
  }

  /** The pages fetched, in order. */
  function Fetches(events: seq<Event>): (f: seq<Fetch>)
    ensures |f| <= |events|
    decreases |events|
  {
    if events == [] then []
    else (if events[0].Fetched? then [events[0].fetch] else []) + Fetches(events[1..])
  }

  lemma {:induction false} FetchesAppend(a: seq<Event>, b: seq<Event>)
    ensures Fetches(a + b) == Fetches(a) + Fetches(b)
    decreases |a|
  {
    if a == [] {
      assert a + b == b;
    } else {
      var c := a + b;
      assert c != [] && c[0] == a[0];
      assert c[1..] == a[1..] + b;
      FetchesAppend(a[1..], b);
      var h := if a[0].Fetched? then [a[0].fetch] else [];
      assert Fetches(c) == h + Fetches(a[1..] + b);
      assert Fetches(a) == h + Fetches(a[1..]);
    }
  }

  /** Every id is fetched once, in order, with the task's marker, whether or not its
      record is rejected. */
  lemma {:induction false} TaskFetchesInOrder(site: Site, judge: Judge, ids: seq<Id>)
    ensures |Fetches(TaskSteps(site, judge, ids))| == |ids|
    ensures forall i | 0 <= i < |ids| :: Fetches(TaskSteps(site, judge, ids))[i] == TaskFetch(ids[i])
    decreases |ids|
  {
    if ids != [] {
      var init := ids[..|ids| - 1];
      var last := ids[|ids| - 1];
      TaskFetchesInOrder(site, judge, init);
      FetchesAppend(TaskSteps(site, judge, init), TaskStep(site, judge, last));
      var step := TaskStep(site, judge, last);
      assert Fetches(step) == [TaskFetch(last)] by {
        assert step[1..] == (if Judged(site, judge, last).Failure? then [Sent(RecordRejected(Judged(site, judge, last).error))] else []);
        if Judged(site, judge, last).Failure? {
          assert step[1..][1..] == [];
        }
      }
    }
  }

  /** One message per rejected record: the loop sends exactly as many messages as there
      are rejected records, and the accepted and rejected records add up to all ids. */
  lemma {:induction false} TaskStepsMessages(site: Site, judge: Judge, ids: seq<Id>)
    ensures |Messages(TaskSteps(site, judge, ids))| + |Accepted(site, judge, ids)| == |ids|
    ensures forall m | m in Messages(TaskSteps(site, judge, ids)) :: m.RecordRejected?
    decreases |ids|
  {
    if ids != [] {
      var init := ids[..|ids| - 1];
      var last := ids[|ids| - 1];
      TaskStepsMessages(site, judge, init);
      MessagesAppend(TaskSteps(site, judge, init), TaskStep(site, judge, last));
      var step := TaskStep(site, judge, last);
      assert step[1..] == (if Judged(site, judge, last).Failure? then [Sent(RecordRejected(Judged(site, judge, last).error))] else []);
      if Judged(site, judge, last).Failure? {
        assert step[1..][1..] == [];
      }
    }
  }

  /** Reference: the events of the whole task. */
  function TaskRun(site: Site, judge: Judge, ids: seq<Id>, count: int): seq<Event> {
    var saved := Accepted(site, judge, ids);
    TaskSteps(site, judge, ids)
    + [DriverClosed, BulkCreated(saved), Sent(FinalMessage(SomeRejected(site, judge, ids), saved, count))]
  }

  /** The messages are one per rejected record, then the final one. */
  lemma {:induction false} TaskMessages(site: Site, judge: Judge, ids: seq<Id>, count: int)
    ensures var m := Messages(TaskRun(site, judge, ids, count));
      && |m| == |ids| - |Accepted(site, judge, ids)| + 1
      && m[|m| - 1] == FinalMessage(SomeRejected(site, judge, ids), Accepted(site, judge, ids), count)
  {
    var steps := TaskSteps(site, judge, ids);
    var saved := Accepted(site, judge, ids);
    var last := Sent(FinalMessage(SomeRejected(site, judge, ids), saved, count));
    var tail := [DriverClosed, BulkCreated(saved), last];
    TaskStepsMessages(site, judge, ids);
    MessagesAppend(steps, tail);
    assert Messages(tail) == [last.message] by {
      assert tail[1..][1..] == [last];
      assert Messages([last]) == [last.message] by {
        assert [last][1..] == [];
      }
    }
  }

  /** Nothing is stored inside the loop: no save and no bulk insert happen before the
      driver is closed, and there is exactly one bulk insert, holding the accepted
      records. */
  lemma {:induction false} TaskStoresOnceAtEnd(site: Site, judge: Judge, ids: seq<Id>, count: int)
    ensures var e := TaskRun(site, judge, ids, count);
      && e[|e| - 3] == DriverClosed
      && e[|e| - 2] == BulkCreated(Accepted(site, judge, ids))
      && forall i | 0 <= i < |e| - 2 :: !e[i].BulkCreated? && !e[i].Saved?
  {
    var steps := TaskSteps(site, judge, ids);
    var e := TaskRun(site, judge, ids, count);
    TaskStepsOnlyFetchesAndMessages(site, judge, ids);
    forall i | 0 <= i < |e| - 2
      ensures !e[i].BulkCreated? && !e[i].Saved?
    {
      if i < |steps| {
        assert e[i] == steps[i];
      }
    }
  }

  lemma {:induction false} TaskStepsOnlyFetchesAndMessages(site: Site, judge: Judge, ids: seq<Id>)
    ensures forall i | 0 <= i < |TaskSteps(site, judge, ids)| ::
      TaskSteps(site, judge, ids)[i].Fetched? || TaskSteps(site, judge, ids)[i].Sent?
    decreases |ids|
  {
    if ids != [] {
      TaskStepsOnlyFetchesAndMessages(site, judge, ids[..|ids| - 1]);
    }
  }
}

=== FILE: numbers.dfy ===
/** Python's `int()` of a string and the `\.0*\s*$` clean-up that Django's and the REST
    framework's integer fields apply before it, so that `"5.0"` reads as 5. */
module Numbers {
  import opened Wrappers
  import opened Text

  /** `0*\s*` matches the whole of `t`: some zeros, then blanks only. */
  predicate ZerosThenBlanks(t: string)
    decreases |t|
  {
    || (forall i | 0 <= i < |t| :: IsSpace(t[i]))
    || (t[0] == '0' && ZerosThenBlanks(t[1..]))
  }

  /** `\.0*\s*$` matches at `p`. */
  predicate DecimalTailAt(s: string, p: nat) {
    p < |s| && s[p] == '.' && ZerosThenBlanks(s[p + 1..])
  }

  function DecimalTailSearch(s: string, p: nat): (r: Option<nat>)
    requires p <= |s|
    ensures r.None? ==> forall q | p <= q < |s| :: !DecimalTailAt(s, q)
    ensures r.Some? ==> p <= r.value < |s| && DecimalTailAt(s, r.value)
    decreases |s| - p
  {
    if p == |s| then None
    else if DecimalTailAt(s, p) then Some(p)
    else DecimalTailSearch(s, p + 1)
  }

  /** `re.sub(r'\.0*\s*$', '', s)`: cuts a trailing `.`, `.0`, `.00 ` and the like. */
  function DropDecimalTail(s: string): (r: string)
    ensures |r| <= |s| && r == s[..|r|]
    ensures r == s <==> forall q | 0 <= q < |s| :: !DecimalTailAt(s, q)
    ensures r != s ==> DecimalTailAt(s, |r|)
  {
    match DecimalTailSearch(s, 0)
    case None => s
    case Some(p) => s[..p]
  }

  /** A text without a dot has no decimal tail to cut. */
  lemma {:induction false} DropDecimalTailNoDot(s: string)
    requires '.' !in s
    ensures DropDecimalTail(s) == s
  {
    forall q | 0 <= q < |s|
      ensures !DecimalTailAt(s, q)
    {
      assert s[q] in s;
    }
  }

  /** The digits after an optional sign. */
  function Unsigned(t: string): string {
    if t != [] && (t[0] == '+' || t[0] == '-') then t[1..] else t
  }

  /** Python's `int(s)` for a string: blanks around, an optional sign, then one or more
      ASCII digits; `None` where Python raises `ValueError`. */
  function PyInt(s: string): (r: Option<int>)
    ensures r.Some? ==> '.' !in s
    ensures r.Some? ==> AllDigits(Unsigned(Strip(s))) && Unsigned(Strip(s)) != []
  {
    var t := Strip(s);
    var digits := Unsigned(t);
    if digits == [] || !AllDigits(digits) then None
    else
      PyIntHasNoDot(s);
      var n: int := DigitsValue(digits);
      Some(if t[0] == '-' then -n else n)
  }

  lemma {:induction false} PyIntHasNoDot(s: string)
    requires Unsigned(Strip(s)) != [] && AllDigits(Unsigned(Strip(s)))
    ensures '.' !in s
  {
    var t := Strip(s);
    var d := Unsigned(t);
    assert d == t[|t| - |d|..];
    assert forall j | 0 <= j < |t| :: t[j] != '.' by {
      forall j | 0 <= j < |t|
        ensures t[j] != '.'
      {
        if j >= |t| - |d| {
          assert t[j] == d[j - (|t| - |d|)];
        }
      }
    }
    forall i | 0 <= i < |s|
      ensures s[i] != '.'
    {
      if s[i] == '.' {
        StripKeepsAt(s, i);
      }
    }
  }

  /** `str(i)` has no blank at either end. */
  lemma {:induction false} DecimalTrimmed(i: int)
    ensures Trimmed(IntToDecimal(i))
  {
    var s := IntToDecimal(i);
    DigitIsNoSpace(s[|s| - 1]);
    if i >= 0 {
      DigitIsNoSpace(s[0]);
    }
  }

  /** `int(str(i)) == i`. */
  lemma {:induction false} PyIntRoundTrip(i: int)
    ensures PyInt(IntToDecimal(i)) == Some(i)
  {
    var s := IntToDecimal(i);
    var n: nat := if i < 0 then -i else i;
    DecimalTrimmed(i);
    StripTrimmed(s);
    DecimalRoundTrip(n);
    PyIntOfDigits(s, i < 0, NatToDecimal(n));
  }

  /** `int()` of an optional minus sign and digits, with no blank around them. */
  lemma {:induction false} PyIntOfDigits(s: string, negative: bool, d: string)
    requires Strip(s) == s
    requires d != [] && AllDigits(d)
    requires s == (if negative then "-" else "") + d
    ensures PyInt(s).Some? && PyInt(s).value == if negative then -(DigitsValue(d) as int) else DigitsValue(d)
  {
    if negative {
      assert s[0] == '-' && s[1..] == d;
    } else {
      assert s == d && !(s[0] == '+' || s[0] == '-');
    }
    assert Unsigned(s) == d;
  }
}

=== FILE: records.dfy ===
/** A stored product (`products/models.py`) and the checks `ProductSerializer`
    (`api/v1/serializers.py`) runs on the dictionary the crawler builds for it.
    The serializer is a model serializer over six fields: text fields trim their
    blanks and then check their length; integer fields read `int()` of the text and
    check the range of the database column (32 bits on the MySQL backend); `ozon_id`
    must not be stored yet. Every failing field reports all the checks it failed. */
module Records {
  import opened Wrappers
  import opened Text
  import opened Numbers

  /** A value of the serializer's input dictionary; `Moment` is a `datetime`. */
  datatype Value = Null | Str(s: string) | Int(i: int) | Moment(t: int)

  /** A key of the input dictionary: the six serializer fields, `request_date`, or any
      other key (`Extra` never names one of the seven). */
  datatype Key = Name | Price | Description | ImageUrl | Discount | OzonId | RequestDate | Extra(text: string)

  type Data = map<Key, Value>

  /** Range of a MySQL `INT` column, which Django checks on every `IntegerField`. */
  const INT_MIN: int := -0x8000_0000
  const INT_MAX: int := 0x7fff_ffff

  const NAME_MAX_LENGTH: nat := 250
  const DESCRIPTION_MAX_LENGTH: nat := 5000
  /** Django's default `max_length` of a `URLField`. */
  const IMAGE_URL_MAX_LENGTH: nat := 200
  const DISCOUNT_MAX_LENGTH: nat := 50
  /** Longest text an integer field of the REST framework reads. */
  const MAX_STRING_LENGTH: nat := 1000

  /** The fields of `ProductSerializer`. */
  const FIELDS: set<Key> := {Name, Price, Description, ImageUrl, Discount, OzonId}

  datatype FieldError =
    | Required          // the key is missing
    | NullNotAllowed    // the value is `None`
    | Blank             // empty after trimming, on a field that does not allow it
    | Invalid           // not text, or not an integer
    | MaxLength(length: nat)
    | NullCharacter     // a NUL character in text
    | NotUrl
    | MaxStringLength   // integer text longer than `MAX_STRING_LENGTH`
    | MaxValue(most: int)
    | MinValue(least: int)
    | NotUnique         // `ozon_id` already stored

  /** `serializer.errors`: the failing fields and what each failed. */
  type Errors = map<Key, seq<FieldError>>

  /** The validated fields of a product; `None` is SQL `NULL`. */
  datatype Product = Product(
    name: string,
    price: int,
    description: Option<string>,
    imageUrl: string,
    discount: Option<string>,
    ozonId: int)

  // ------------------------------------------------------------ the constraints

  /** A text value as the database keeps it: trimmed, short enough, no NUL. */
  predicate TextFits(s: string, maxLength: nat) {
    Trimmed(s) && |s| <= maxLength && '\0' !in s
  }

  predicate IntFits(i: int) {
    INT_MIN <= i <= INT_MAX
  }

  /** The constraints of `Product`, as a validated record meets them. */
  predicate ProductConstraints(p: Product, isUrl: string -> bool) {
    && TextFits(p.name, NAME_MAX_LENGTH) && p.name != []
    && IntFits(p.price)
    && (p.description.Some? ==> TextFits(p.description.value, DESCRIPTION_MAX_LENGTH))
    && TextFits(p.imageUrl, IMAGE_URL_MAX_LENGTH) && p.imageUrl != [] && isUrl(p.imageUrl)
    && (p.discount.Some? ==> TextFits(p.discount.value, DISCOUNT_MAX_LENGTH))
    && IntFits(p.ozonId)
  }

  // ------------------------------------------------------------ field cleaning

  /** What a text field reads: strings as they are, integers through `str()`. */
  function AsText(v: Value): Option<string> {
    match v
    case Str(s) => Some(s)
    case Int(i) => Some(IntToDecimal(i))
    case _ => None
  }

  /** The checks on trimmed text: the length limit, then no NUL character. */
  function TextChecks(t: string, maxLength: nat): (e: seq<FieldError>)
    ensures e == [] <==> |t| <= maxLength && '\0' !in t
  {
    (if |t| > maxLength then [MaxLength(maxLength)] else [])
    + (if '\0' in t then [NullCharacter] else [])
  }

  /** A text field. `v` is `None` when the key is missing. A field that is `optional`
      (`blank=True, null=True` on the model) may be missing, `None` or blank; the others
      must hold text with something besides blanks. Blank text reads as `""`. */
  function CleanText(v: Option<Value>, maxLength: nat, optional: bool): (r: Result<Option<string>, seq<FieldError>>)
    ensures r.Success? && r.value.Some? ==> TextFits(r.value.value, maxLength)
    ensures r.Success? && r.value.Some? ==> v.Some? && AsText(v.value).Some? && r.value.value == Strip(AsText(v.value).value)
    ensures r.Success? && r.value.None? <==> optional && (v.None? || v == Some(Null))
    ensures !optional && r.Success? ==> r.value.Some? && r.value.value != []
    ensures r.Failure? ==> r.error != []
  {
    match v
    case None => if optional then Success(None) else Failure([Required])
    case Some(Null) => if optional then Success(None) else Failure([NullNotAllowed])
    case Some(Moment(_)) => Failure([Invalid])
    case Some(x) =>
      var t := Strip(AsText(x).value);
      if t == [] then
        (if optional then Success(Some([])) else Failure([Blank]))
      else
        var e := TextChecks(t, maxLength);
        if e == [] then Success(Some(t)) else Failure(e)
  }

  /** The URL field: a required text field whose text must also be a URL. */
  function CleanUrl(v: Option<Value>, isUrl: string -> bool): (r: Result<string, seq<FieldError>>)
    ensures r.Success? ==> TextFits(r.value, IMAGE_URL_MAX_LENGTH) && r.value != [] && isUrl(r.value)
    ensures r.Success? ==> CleanText(v, IMAGE_URL_MAX_LENGTH, false) == Success(Some(r.value))
    ensures r.Failure? ==> r.error != []
  {
    match CleanText(v, IMAGE_URL_MAX_LENGTH, false)
    case Failure(e) =>
      (match v
       case Some(x) =>
         if AsText(x).Some? && Strip(AsText(x).value) != [] && !isUrl(Strip(AsText(x).value))
         then Failure(e + [NotUrl]) else Failure(e)
       case None => Failure(e))
    case Success(t) =>
      if isUrl(t.value) then Success(t.value) else Failure([NotUrl])
  }

  /** The range checks of an integer column, after the uniqueness check when the
      column is unique (`unique` holds the stored values then, and is empty otherwise). */
  function IntChecks(n: int, unique: set<int>): (e: seq<FieldError>)
    ensures e == [] <==> IntFits(n) && n !in unique
  {
    (if n in unique then [NotUnique] else [])
    + (if n > INT_MAX then [MaxValue(INT_MAX)] else [])
    + (if n < INT_MIN then [MinValue(INT_MIN)] else [])
  }

  /** A required integer field: `int()` of the text once a trailing `.0` is cut. A
      missing value, `None` and a moment are refused; an int is accepted iff it fits the
      column and is not stored (`CleanIntOfText` states the text case). */
  function CleanInt(v: Option<Value>, unique: set<int>): (r: Result<int, seq<FieldError>>)
    ensures r.Success? ==> IntFits(r.value) && r.value !in unique
    ensures r.Failure? ==> r.error != []
    ensures v.None? || v == Some(Null) || (v.Some? && v.value.Moment?) ==> r.Failure?
    ensures v.Some? && v.value.Int? ==>
      (r.Success? <==> IntFits(v.value.i) && v.value.i !in unique)
      && (r.Success? ==> r.value == v.value.i)
  {
    match v
    case None => Failure([Required])
    case Some(Null) => Failure([NullNotAllowed])
    case Some(Moment(_)) => Failure([Invalid])
    case Some(Int(i)) =>
      var e := IntChecks(i, unique);
      if e == [] then Success(i) else Failure(e)
    case Some(Str(s)) =>
      if |s| > MAX_STRING_LENGTH then Failure([MaxStringLength])
      else
        match PyInt(DropDecimalTail(s))
        case None => Failure([Invalid])
        case Some(n) =>
          var e := IntChecks(n, unique);
          if e == [] then Success(n) else Failure(e)
  }

  /** A text is accepted iff it is at most `MAX_STRING_LENGTH` long and, once its
      decimal tail is cut, `int()` reads it as an int that fits the column and is not
      stored; it is then read as that int. */
  lemma {:induction false} CleanIntOfText(s: string, unique: set<int>)
    ensures var r := CleanInt(Some(Str(s)), unique);
      var n := PyInt(DropDecimalTail(s));
      && (r.Success? <==> |s| <= MAX_STRING_LENGTH && n.Some? && IntFits(n.value) && n.value !in unique)
      && (r.Success? ==> r.value == n.value)
  {
  }

  /** Which values a text field accepts: a text (or an int, read through `str()`) is
      accepted iff its stripped form is blank on an optional field, or is non-blank,
      at most `maxLength` long and free of NUL; it is then read as that stripped form.
      A moment is refused. */
  lemma {:induction false} CleanTextOfText(x: Value, maxLength: nat, optional: bool)
    ensures x.Moment? ==> CleanText(Some(x), maxLength, optional).Failure?
    ensures AsText(x).Some? ==>
      var u := Strip(AsText(x).value);
      var r := CleanText(Some(x), maxLength, optional);
      && (r.Success? <==> (u != [] || optional) && (u != [] ==> |u| <= maxLength && '\0' !in u))
      && (r.Success? ==> r.value == Some(u))
  {
  }

  /** Which values the URL field accepts: a text (or an int) iff its stripped form is
      non-blank, at most `IMAGE_URL_MAX_LENGTH` long, free of NUL and a URL; it is then
      read as that stripped form. A missing value, `None` and a moment are refused. */
  lemma {:induction false} CleanUrlOfText(v: Option<Value>, isUrl: string -> bool)
    ensures v.None? || v == Some(Null) || (v.Some? && v.value.Moment?) ==> CleanUrl(v, isUrl).Failure?
    ensures v.Some? && AsText(v.value).Some? ==>
      var u := Strip(AsText(v.value).value);
      var r := CleanUrl(v, isUrl);
      && (r.Success? <==> u != [] && |u| <= IMAGE_URL_MAX_LENGTH && '\0' !in u && isUrl(u))
      && (r.Success? ==> r.value == u)
  {
    if v.Some? {
      CleanTextOfText(v.value, IMAGE_URL_MAX_LENGTH, false);
    }
  }

  /** The printed form of an int, as the crawler sends a cleaned price, is read back as
      that int: accepted when it fits the column and is not stored, and otherwise
      refused only for being stored. */
  lemma {:induction false} CleanIntOfDecimal(i: int, unique: set<int>)
    requires IntFits(i)
    ensures CleanInt(Some(Str(IntToDecimal(i))), unique)
            == if i in unique then Failure([NotUnique]) else Success(i)
  {
    var s := IntToDecimal(i);
    var n: nat := if i < 0 then -i else i;
    DecimalLength(n, 10);
    assert |s| <= 12;
    PyIntRoundTrip(i);
    DropDecimalTailNoDot(s);
    assert IntChecks(i, unique) == if i in unique then [NotUnique] else [];
  }

  function Lookup(data: Data, key: Key): Option<Value> {
    if key in data then Some(data[key]) else None
  }

  function ErrorsOf<T>(key: Key, r: Result<T, seq<FieldError>>): (e: Errors)
    ensures e.Keys <= {key}
    ensures key in e <==> r.Failure?
    ensures key in e ==> e[key] == r.error
  {
    if r.Failure? then map[key := r.error] else map[]
  }

  // ------------------------------------------------------------ the serializer

  /** `ProductSerializer(data=data).is_valid()`, with `stored` the `ozon_id`s already in
      the database: the validated product, or the errors of every failing field. Keys
      other than the six fields are ignored. */
  function Validate(data: Data, stored: set<int>, isUrl: string -> bool): Result<Product, Errors> {
    var name := CleanText(Lookup(data, Name), NAME_MAX_LENGTH, false);
    var price := CleanInt(Lookup(data, Price), {});
    var description := CleanText(Lookup(data, Description), DESCRIPTION_MAX_LENGTH, true);
    var imageUrl := CleanUrl(Lookup(data, ImageUrl), isUrl);
    var discount := CleanText(Lookup(data, Discount), DISCOUNT_MAX_LENGTH, true);
    var ozonId := CleanInt(Lookup(data, OzonId), stored);
    if name.Success? && price.Success? && description.Success? && imageUrl.Success?
       && discount.Success? && ozonId.Success?
    then
      Success(Product(name.value.value, price.value, description.value, imageUrl.value,
                      discount.value, ozonId.value))
    else
      Failure(ErrorsOf(Name, name) + ErrorsOf(Price, price) + ErrorsOf(Description, description)
              + ErrorsOf(ImageUrl, imageUrl) + ErrorsOf(Discount, discount)
              + ErrorsOf(OzonId, ozonId))
  }

  /** What is validated meets the constraints of `Product`, and its `ozon_id` is new. */
  lemma {:induction false} ValidateSound(data: Data, stored: set<int>, isUrl: string -> bool)
    ensures var r := Validate(data, stored, isUrl);
      r.Success? ==> ProductConstraints(r.value, isUrl) && r.value.ozonId !in stored
  {
  }

  /** Errors naming only serializer fields, each with at least one error. */
  predicate FieldsOnly(e: Errors) {
    forall k | k in e :: k in FIELDS && e[k] != []
  }

  lemma {:induction false} MergeFieldsOnly(a: Errors, b: Errors)
    requires FieldsOnly(a) && FieldsOnly(b)
    ensures FieldsOnly(a + b)
    ensures a + b == map[] <==> a == map[] && b == map[]
  {
    if a != map[] {
      var k :| k in a;
      assert k in a + b;
    }
    if b != map[] {
      var k :| k in b;
      assert k in a + b;
    }
  }

  lemma {:induction false} ErrorsOfFieldsOnly<T>(key: Key, r: Result<T, seq<FieldError>>)
    requires key in FIELDS && (r.Failure? ==> r.error != [])
    ensures FieldsOnly(ErrorsOf(key, r))
    ensures ErrorsOf(key, r) == map[] <==> r.Success?
  {
    if r.Failure? {
      assert key in ErrorsOf(key, r);
    }
  }

  /** A refused record names at least one field, only serializer fields, and what
      each of them failed. */
  lemma {:induction false} ValidateErrors(data: Data, stored: set<int>, isUrl: string -> bool)
    ensures var r := Validate(data, stored, isUrl);
      r.Failure? ==> r.error != map[] && FieldsOnly(r.error)
  {
    var name := CleanText(Lookup(data, Name), NAME_MAX_LENGTH, false);
    var price := CleanInt(Lookup(data, Price), {});
    var description := CleanText(Lookup(data, Description), DESCRIPTION_MAX_LENGTH, true);
    var imageUrl := CleanUrl(Lookup(data, ImageUrl), isUrl);
    var discount := CleanText(Lookup(data, Discount), DISCOUNT_MAX_LENGTH, true);
    var ozonId := CleanInt(Lookup(data, OzonId), stored);
    ErrorsOfFieldsOnly(Name, name);
    ErrorsOfFieldsOnly(Price, price);
    ErrorsOfFieldsOnly(Description, description);
    ErrorsOfFieldsOnly(ImageUrl, imageUrl);
    ErrorsOfFieldsOnly(Discount, discount);
    ErrorsOfFieldsOnly(OzonId, ozonId);
    var e1, e2, e3 := ErrorsOf(Name, name), ErrorsOf(Price, price), ErrorsOf(Description, description);
    var e4, e5, e6 := ErrorsOf(ImageUrl, imageUrl), ErrorsOf(Discount, discount), ErrorsOf(OzonId, ozonId);
    MergeFieldsOnly(e1, e2);
    MergeFieldsOnly(e1 + e2, e3);
    MergeFieldsOnly(e1 + e2 + e3, e4);
    MergeFieldsOnly(e1 + e2 + e3 + e4, e5);
    MergeFieldsOnly(e1 + e2 + e3 + e4 + e5, e6);
  }

  /** The serializer input that describes `p` field by field. */
  function AsData(p: Product): Data {
    map[
      Name := Str(p.name),
      Price := Int(p.price),
      Description := OptionalValue(p.description),
      ImageUrl := Str(p.imageUrl),
      Discount := OptionalValue(p.discount),
      OzonId := Int(p.ozonId)]
  }

  lemma {:induction false} CleanTextOfFit(s: string, maxLength: nat, optional: bool)
    requires TextFits(s, maxLength) && (optional || s != [])
    ensures CleanText(Some(Str(s)), maxLength, optional) == Success(Some(s))
  {
    StripTrimmed(s);
    CleanTextOfText(Str(s), maxLength, optional);
  }

  /** The input value of an optional text field, as a field getter hands it over:
      `None`, or the text itself. */
  function OptionalValue(o: Option<string>): Value {
    if o.Some? then Str(o.value) else Null
  }

  lemma {:induction false} CleanOptionalOfFit(o: Option<string>, maxLength: nat)
    requires o.Some? ==> TextFits(o.value, maxLength)
    ensures CleanText(Some(OptionalValue(o)), maxLength, true) == Success(o)
  {
    if o.Some? {
      CleanTextOfFit(o.value, maxLength, true);
    }
  }

  /** Round trip: a product that meets every constraint, with an `ozon_id` not stored yet,
      is exactly what the serializer validates from its own fields. */
  lemma {:induction false} ValidateAsData(p: Product, stored: set<int>, isUrl: string -> bool)
    requires ProductConstraints(p, isUrl) && p.ozonId !in stored
    ensures Validate(AsData(p), stored, isUrl) == Success(p)
  {
    TextFieldsOfAsData(p, isUrl);
    IntFieldsOfAsData(p, stored);
  }

  lemma {:induction false} TextFieldsOfAsData(p: Product, isUrl: string -> bool)
    requires ProductConstraints(p, isUrl)
    ensures var d := AsData(p);
      && CleanText(Lookup(d, Name), NAME_MAX_LENGTH, false) == Success(Some(p.name))
      && CleanUrl(Lookup(d, ImageUrl), isUrl) == Success(p.imageUrl)
      && CleanText(Lookup(d, Description), DESCRIPTION_MAX_LENGTH, true) == Success(p.description)
      && CleanText(Lookup(d, Discount), DISCOUNT_MAX_LENGTH, true) == Success(p.discount)
  {
    var d := AsData(p);
    assert Lookup(d, Name) == Some(Str(p.name));
    assert Lookup(d, ImageUrl) == Some(Str(p.imageUrl));
    assert Lookup(d, Description) == Some(OptionalValue(p.description));
    assert Lookup(d, Discount) == Some(OptionalValue(p.discount));
    CleanTextOfFit(p.name, NAME_MAX_LENGTH, false);
    CleanTextOfFit(p.imageUrl, IMAGE_URL_MAX_LENGTH, false);
    CleanOptionalOfFit(p.description, DESCRIPTION_MAX_LENGTH);
    CleanOptionalOfFit(p.discount, DISCOUNT_MAX_LENGTH);
  }

  lemma {:induction false} IntFieldsOfAsData(p: Product, stored: set<int>)
    requires IntFits(p.price) && IntFits(p.ozonId) && p.ozonId !in stored
    ensures var d := AsData(p);
      && CleanInt(Lookup(d, Price), {}) == Success(p.price)
      && CleanInt(Lookup(d, OzonId), stored) == Success(p.ozonId)
  {
    var d := AsData(p);
    assert Lookup(d, Price) == Some(Int(p.price));
    assert Lookup(d, OzonId) == Some(Int(p.ozonId));
  }

  /** A record is valid exactly when its fields meet the constraints and its `ozon_id`
      is not stored: the serializer hands back the very product it was given from exactly
      those records. */
  lemma {:induction false} ValidIffConstraints(p: Product, stored: set<int>, isUrl: string -> bool)
    ensures Validate(AsData(p), stored, isUrl) == Success(p) <==> ProductConstraints(p, isUrl) && p.ozonId !in stored
  {
    ValidateSound(AsData(p), stored, isUrl);
    if ProductConstraints(p, isUrl) && p.ozonId !in stored {
      ValidateAsData(p, stored, isUrl);
    }
  }

  /** The `ozon_id` the serializer accepts is the one it was given, and a stored one is refused. */
  lemma {:induction false} ValidateKeepsId(data: Data, stored: set<int>, isUrl: string -> bool, id: int)
    requires OzonId in data && data[OzonId] == Int(id)
    ensures Validate(data, stored, isUrl).Success? ==> Validate(data, stored, isUrl).value.ozonId == id
    ensures id in stored ==>
      && Validate(data, stored, isUrl).Failure?
      && OzonId in Validate(data, stored, isUrl).error
      && Validate(data, stored, isUrl).error[OzonId][0] == NotUnique
  {
    assert Lookup(data, OzonId) == Some(Int(id));
  }

  /** Only the six fields are read: two inputs that agree on them validate alike. */
  lemma {:induction false} OnlyFieldsMatter(d1: Data, d2: Data, stored: set<int>, isUrl: string -> bool)
    requires forall k | k in FIELDS :: Lookup(d1, k) == Lookup(d2, k)
    ensures Validate(d1, stored, isUrl) == Validate(d2, stored, isUrl)
  {
    assert Name in FIELDS && Price in FIELDS && Description in FIELDS;
    assert ImageUrl in FIELDS && Discount in FIELDS && OzonId in FIELDS;
  }

  /** `request_date` is no serializer field: whatever is passed under it, or whether it is
      passed at all, the outcome is the same. */
  lemma {:induction false} RequestDateIgnored(data: Data, v: Value, stored: set<int>, isUrl: string -> bool)
    ensures Validate(data[RequestDate := v], stored, isUrl) == Validate(data - {RequestDate}, stored, isUrl)
  {
    var d1, d2 := data[RequestDate := v], data - {RequestDate};
    forall k | k in FIELDS
      ensures Lookup(d1, k) == Lookup(d2, k)
    {
      assert k != RequestDate;
    }
    OnlyFieldsMatter(d1, d2, stored, isUrl);
  }

  // ------------------------------------------------------------ the output side

  /** The serializer's output for a product: `ozon_id` is write-only, so it is left out. */
  function Represent(p: Product): (r: map<Key, Value>)
    ensures r.Keys == {Name, Price, Description, ImageUrl, Discount}
  {
    map[
      Name := Str(p.name),
      Price := Int(p.price),
      Description := OptionalValue(p.description),
      ImageUrl := Str(p.imageUrl),
      Discount := OptionalValue(p.discount)]
  }

  /** `ozon_id` goes in but does not come out: the output of a validated product is the
      same whatever its id, and carries every other field. */
  lemma {:induction false} WriteOnlyId(p: Product, id: int)
    ensures OzonId !in Represent(p)
    ensures Represent(p.(ozonId := id)) == Represent(p)
    ensures forall k | k in Represent(p) :: k in AsData(p) && Represent(p)[k] == AsData(p)[k]
  {
  }

  // ------------------------------------------------------------ default ordering

  /** Code-point order of names: `a` sorts no later than `b`. */
  predicate TextLe(a: string, b: string)
    decreases |a|
  {
    a == [] || (b != [] && (a[0] < b[0] || (a[0] == b[0] && TextLe(a[1..], b[1..]))))
  }

  /** `ordering = ('name', 'price')`: by name, then by price. */
  predicate Before(p: Product, q: Product) {
    if p.name == q.name then p.price <= q.price else TextLe(p.name, q.name)
  }

  predicate Sorted(ps: seq<Product>) {
    forall i, j | 0 <= i < j < |ps| :: Before(ps[i], ps[j])
  }
}

=== FILE: storage.dfy ===
/** The `Product` table: rows in insertion order, each a validated product with the
    moment of the crawl that found it (`request_date`, a `NOT NULL` column). Saving goes
    through the serializer: `serializer.save()` inserts the serializer's validated fields,
    plus whatever is passed to `save` itself. The table's default order is by name, then
    by price. */
module Storage {
  import opened Wrappers
  import opened Text
  import opened Records

  datatype Row = Row(product: Product, requestDate: int)

  type Table = seq<Row>

  function StoredIds(t: Table): set<int> {
    set r | r in t :: r.product.ozonId
  }

  /** `unique=True` on `ozon_id`. */
  predicate UniqueIds(t: Table) {
    forall i, j | 0 <= i < j < |t| :: t[i].product.ozonId != t[j].product.ozonId
  }

  // ------------------------------------------------------------------ saving

  /** The column the database refuses to leave empty. */
  datatype DbError = NotNull(column: Key)

  /** An `INSERT` of the columns a model instance holds for `p`: refused when the
      `request_date` column is missing or not a moment. */
  function Insert(columns: Data, p: Product): (r: Result<Row, DbError>)
    ensures r.Success? <==> RequestDate in columns && columns[RequestDate].Moment?
    ensures r.Success? ==> r.value == Row(p, columns[RequestDate].t)
  {
    if RequestDate in columns && columns[RequestDate].Moment? then Success(Row(p, columns[RequestDate].t))
    else Failure(NotNull(RequestDate))
  }

  /** `serializer.save()` with no arguments: the instance gets the validated fields
      only, so `request_date` is left unset although the input dictionary held it. */
  function SaveAsWritten(p: Product): Result<Row, DbError> {
    Insert(AsData(p), p)
  }

  /** The save of `core/utils.py` as written always fails: a validated product carries
      the six serializer fields only, so `request_date` never reaches the insert, whatever
      the input dictionary held under it (see `Records.RequestDateIgnored`). */
  lemma {:induction false} SaveAsWrittenFails(p: Product)
    ensures SaveAsWritten(p) == Failure(NotNull(RequestDate))
  {
    assert RequestDate !in AsData(p);
  }

  /** `serializer.save(request_date=request_date)`: the crawl moment is added to the
      validated fields, so the row is the product stamped with that moment. */
  function Save(p: Product, date: int): (r: Result<Row, DbError>)
    ensures r == Success(Row(p, date))
  {
    Insert(AsData(p)[RequestDate := Moment(date)], p)
  }

  /** Adding a validated product keeps the ids unique: the serializer refused every id
      already stored. */
  lemma {:induction false} AppendKeepsUnique(t: Table, data: Data, isUrl: string -> bool, date: int)
    requires UniqueIds(t)
    requires Validate(data, StoredIds(t), isUrl).Success?
    ensures UniqueIds(t + [Save(Validate(data, StoredIds(t), isUrl).value, date).value])
  {
    var p := Validate(data, StoredIds(t), isUrl).value;
    ValidateSound(data, StoredIds(t), isUrl);
    var t' := t + [Row(p, date)];
    forall i, j | 0 <= i < j < |t'|
      ensures t'[i].product.ozonId != t'[j].product.ozonId
    {
      if j == |t| {
        assert t[i] in t;
      }
    }
  }

  // ------------------------------------------------------------ default order

  lemma {:induction false} TextLeTotal(a: string, b: string)
    ensures TextLe(a, b) || TextLe(b, a)
    decreases |a|
  {
    if a != [] && b != [] && a[0] == b[0] {
      TextLeTotal(a[1..], b[1..]);
    }
  }

  lemma {:induction false} TextLeAntisymmetric(a: string, b: string)
    requires TextLe(a, b) && TextLe(b, a)
    ensures a == b
    decreases |a|
  {
    if a != [] {
      TextLeAntisymmetric(a[1..], b[1..]);
      assert a == [a[0]] + a[1..];
      assert b == [b[0]] + b[1..];
    }
  }

  lemma {:induction false} TextLeTransitive(a: string, b: string, c: string)
    requires TextLe(a, b) && TextLe(b, c)
    ensures TextLe(a, c)
    decreases |a|
  {
    if a != [] && a[0] == b[0] && b[0] == c[0] {
      TextLeTransitive(a[1..], b[1..], c[1..]);
    }
  }

  lemma {:induction false} BeforeTotal(p: Product, q: Product)
    ensures Before(p, q) || Before(q, p)
  {
    TextLeTotal(p.name, q.name);
  }

  lemma {:induction false} BeforeTransitive(p: Product, q: Product, r: Product)
    requires Before(p, q) && Before(q, r)
    ensures Before(p, r)
  {
    if p.name != q.name && q.name != r.name {
      TextLeTransitive(p.name, q.name, r.name);
      if p.name == r.name {
        TextLeAntisymmetric(p.name, q.name);
      }
    } else if p.name == q.name && q.name != r.name {
      assert TextLe(p.name, r.name);
    }
  }

  predicate SortedRows(t: Table) {
    forall i, j | 0 <= i < j < |t| :: Before(t[i].product, t[j].product)
  }

  /** `x` inserted before the first row it sorts no later than. */
  function InsertRow(x: Row, t: Table): (r: Table)
    ensures |r| == |t| + 1
    decreases |t|
  {
    if t == [] || Before(x.product, t[0].product) then [x] + t
    else [t[0]] + InsertRow(x, t[1..])
  }

  /** The rows in the default order (`ordering = ('name', 'price')`). */
  function SortRows(t: Table): (r: Table)
    ensures |r| == |t|
    decreases |t|
  {
    if t == [] then [] else InsertRow(t[0], SortRows(t[1..]))
  }

  lemma {:induction false} InsertRowCounts(x: Row, t: Table)
    ensures multiset(InsertRow(x, t)) == multiset(t) + multiset{x}
    decreases |t|
  {
    if t != [] && !Before(x.product, t[0].product) {
      InsertRowCounts(x, t[1..]);
      assert t == [t[0]] + t[1..];
    }
  }

  /** A product sorting no later than `x` and than every row of `t` sorts no later than
      every row of `t` with `x` inserted. */
  lemma {:induction false} InsertRowBelow(y: Product, x: Row, t: Table)
    requires Before(y, x.product)
    requires forall k | 0 <= k < |t| :: Before(y, t[k].product)
    ensures forall j | 0 <= j < |t| + 1 :: Before(y, InsertRow(x, t)[j].product)
    decreases |t|
  {
    var r := InsertRow(x, t);
    if t != [] && !Before(x.product, t[0].product) {
      InsertRowBelow(y, x, t[1..]);
      assert r == [t[0]] + InsertRow(x, t[1..]);
      forall j | 0 <= j < |r|
        ensures Before(y, r[j].product)
      {
        if j > 0 {
          assert r[j] == InsertRow(x, t[1..])[j - 1];
        }
      }
    } else {
      assert r == [x] + t;
      forall j | 0 <= j < |r|
        ensures Before(y, r[j].product)
      {
        if j > 0 {
          assert r[j] == t[j - 1];
        }
      }
    }
  }

  lemma {:induction false} InsertRowSorted(x: Row, t: Table)
    requires SortedRows(t)
    ensures SortedRows(InsertRow(x, t))
    decreases |t|
  {
    var r := InsertRow(x, t);
    if t == [] {
    } else if Before(x.product, t[0].product) {
      forall i, j | 0 <= i < j < |r|
        ensures Before(r[i].product, r[j].product)
      {
        if i == 0 && j > 1 {
          BeforeTransitive(x.product, t[0].product, t[j - 1].product);
        }
      }
    } else {
      BeforeTotal(x.product, t[0].product);
      InsertRowSorted(x, t[1..]);
      var rest := InsertRow(x, t[1..]);
      InsertRowBelow(t[0].product, x, t[1..]);
      forall i, j | 0 <= i < j < |r|
        ensures Before(r[i].product, r[j].product)
      {
        if i == 0 {
          assert r[j] == rest[j - 1];
        } else {
          assert r[i] == rest[i - 1] && r[j] == rest[j - 1];
        }
      }
    }
  }

  /** The default order is a reordering of the rows, and it is sorted. */
  lemma {:induction false} SortRowsCorrect(t: Table)
    ensures SortedRows(SortRows(t))
    ensures multiset(SortRows(t)) == multiset(t)
    decreases |t|
  {
    if t != [] {
      SortRowsCorrect(t[1..]);
      InsertRowSorted(t[0], SortRows(t[1..]));
      InsertRowCounts(t[0], SortRows(t[1..]));
      assert t == [t[0]] + t[1..];
    }
  }
}

=== FILE: text.dfy ===
/** Character classes and string helpers with Python's meaning: `str.isspace`,
    `str()` of an int, `int()` of a digit string, `str.strip`, `str.split()`,
    `str.split(c)` and `sep.join`. */
module Text {

  /** An ASCII decimal digit. Python's `\d` and `int()` also accept the other Unicode
      decimal digits; this model reads digits as ASCII only. */
  predicate IsDigit(c: char) {
    '0' <= c <= '9'
  }

  /** Python's `str.isspace()`: the characters `str.split()` and `str.strip()` treat as blanks. */
  predicate IsSpace(c: char) {
    || c == ' '
    || '\t' <= c <= '\r'
    || '\U{1C}' <= c <= '\U{1F}'
    || c == '\U{85}'
    || c == '\U{A0}'
    || c == '\U{1680}'
    || '\U{2000}' <= c <= '\U{200A}'
    || c == '\U{2028}'
    || c == '\U{2029}'
    || c == '\U{202F}'
    || c == '\U{205F}'
    || c == '\U{3000}'
  }

  predicate AllDigits(s: string) {
    forall i | 0 <= i < |s| :: IsDigit(s[i])
  }

  predicate NoSpace(s: string) {
    forall i | 0 <= i < |s| :: !IsSpace(s[i])
  }

  function DigitValue(c: char): (d: nat)
    requires IsDigit(c)
    ensures d < 10
  {
    (c as int) - ('0' as int)
  }

  function DigitChar(d: nat): (c: char)
    requires d < 10
    ensures IsDigit(c) && DigitValue(c) == d
  {
    (('0' as int) + d) as char
  }

  /** The value Python's `int()` gives a string of decimal digits (leading zeros allowed). */
  function DigitsValue(s: string): nat
    requires AllDigits(s)
    decreases |s|
  {
    if s == [] then 0 else DigitsValue(s[..|s| - 1]) * 10 + DigitValue(s[|s| - 1])
  }

  /** Python's `str(n)` for a non-negative int: digits, no leading zero. */
  function NatToDecimal(n: nat): (r: string)
    ensures |r| >= 1 && AllDigits(r)
    ensures r[0] == '0' <==> n == 0
    decreases n
  {
    if n < 10 then [DigitChar(n)] else NatToDecimal(n / 10) + [DigitChar(n % 10)]
  }

  /** Python's `str(i)` for any int. */
  function IntToDecimal(i: int): (r: string)
    ensures |r| >= 1
    ensures i >= 0 <==> IsDigit(r[0])
    ensures i >= 0 ==> AllDigits(r)
  {
    if i < 0 then "-" + NatToDecimal(-i) else NatToDecimal(i)
  }

  /** `int(str(n)) == n`: reading back a printed number gives the number. */
  lemma {:induction false} DecimalRoundTrip(n: nat)
    ensures DigitsValue(NatToDecimal(n)) == n
    decreases n
  {
    if n >= 10 {
      DecimalRoundTrip(n / 10);
      var s := NatToDecimal(n);
      assert s[..|s| - 1] == NatToDecimal(n / 10);
    }
  }

  function Pow10(k: nat): nat {
    if k == 0 then 1 else 10 * Pow10(k - 1)
  }

  /** A number below `10^k` prints in at most `k + 1` characters. */
  lemma {:induction false} DecimalLength(n: nat, k: nat)
    requires n < Pow10(k)
    ensures |NatToDecimal(n)| <= k + 1
    decreases k
  {
    if n >= 10 {
      assert k != 0;
      assert n / 10 < Pow10(k - 1);
      DecimalLength(n / 10, k - 1);
    }
  }

  lemma {:induction false} NatToDecimalInjective(a: nat, b: nat)
    ensures NatToDecimal(a) == NatToDecimal(b) ==> a == b
  {
    DecimalRoundTrip(a);
    DecimalRoundTrip(b);
  }

  /** Distinct ints print differently. */
  lemma {:induction false} IntToDecimalInjective(a: int, b: int)
    ensures IntToDecimal(a) == IntToDecimal(b) ==> a == b
  {
    if IntToDecimal(a) == IntToDecimal(b) {
      if a < 0 && b < 0 {
        assert IntToDecimal(a)[1..] == NatToDecimal(-a);
        assert IntToDecimal(b)[1..] == NatToDecimal(-b);
        NatToDecimalInjective(-a, -b);
      } else if a >= 0 && b >= 0 {
        NatToDecimalInjective(a, b);
      }
    }
  }

  /** End of the maximal run of digits that starts at `i` (the greedy `\d*` from `i`). */
  function RunEnd(s: string, i: nat): (j: nat)
    requires i <= |s|
    ensures i <= j <= |s|
    ensures AllDigits(s[i..j])
    ensures j == |s| || !IsDigit(s[j])
    decreases |s| - i
  {
    if i == |s| || !IsDigit(s[i]) then i
    else
      var j := RunEnd(s, i + 1);
      assert s[i..j] == [s[i]] + s[i + 1..j];
      j
  }

  /** A run of digits starting one place earlier ends at the same place. */
  lemma {:induction false} RunEndStep(s: string, i: nat)
    requires i < |s| && IsDigit(s[i])
    ensures RunEnd(s, i) == RunEnd(s, i + 1)
  {
  }

  /** Python's `s.lstrip()`. */
  function TrimStart(s: string): (r: string)
    ensures |r| <= |s| && r == s[|s| - |r|..]
    ensures r == [] || !IsSpace(r[0])
    ensures forall i | 0 <= i < |s| - |r| :: IsSpace(s[i])
    decreases |s|
  {
    if s != [] && IsSpace(s[0]) then TrimStart(s[1..]) else s
  }

  /** Python's `s.rstrip()`. */
  function TrimEnd(s: string): (r: string)
    ensures |r| <= |s| && r == s[..|r|]
    ensures r == [] || !IsSpace(r[|r| - 1])
    ensures forall i | |r| <= i < |s| :: IsSpace(s[i])
    decreases |s|
  {
    if s != [] && IsSpace(s[|s| - 1]) then TrimEnd(s[..|s| - 1]) else s
  }

  /** How many blanks `s.lstrip()` removes. */
  function LeadingBlanks(s: string): (n: nat)
    ensures n <= |s|
  {
    |s| - |TrimStart(s)|
  }

  /** Python's `s.strip()`: the text between the leading and the trailing blanks. */
  function Strip(s: string): (r: string)
    ensures LeadingBlanks(s) + |r| <= |s|
    ensures r == s[LeadingBlanks(s)..LeadingBlanks(s) + |r|]
    ensures forall i | 0 <= i < LeadingBlanks(s) :: IsSpace(s[i])
    ensures forall i | LeadingBlanks(s) + |r| <= i < |s| :: IsSpace(s[i])
    ensures r == [] || (!IsSpace(r[0]) && !IsSpace(r[|r| - 1]))
  {
    var t := TrimStart(s);
    var r := TrimEnd(t);
    PrefixOfSuffix(s, t, r);
    r
  }

  /** A prefix `r` of a suffix `t` of `s` is the slice of `s` at the suffix's start, and
      what follows it in `s` is what follows it in `t`. */
  lemma {:induction false} PrefixOfSuffix(s: string, t: string, r: string)
    requires |t| <= |s| && t == s[|s| - |t|..]
    requires |r| <= |t| && r == t[..|r|]
    ensures r == s[|s| - |t|..|s| - |t| + |r|]
    ensures forall i | |s| - |t| + |r| <= i < |s| :: s[i] == t[i - (|s| - |t|)]
  {
  }

  /** Neither end is a blank: what `strip()` leaves. */
  predicate Trimmed(s: string) {
    s == [] || (!IsSpace(s[0]) && !IsSpace(s[|s| - 1]))
  }

  /** `strip()` leaves a text with no blank at either end as it is. */
  lemma {:induction false} StripTrimmed(s: string)
    requires Trimmed(s)
    ensures Strip(s) == s
  {
    assert TrimStart(s) == s;
    assert TrimEnd(s) == s;
  }

  /** A character that is not a blank survives `strip()`, at its place. */
  lemma {:induction false} StripKeepsAt(s: string, i: nat)
    requires i < |s| && !IsSpace(s[i])
    ensures LeadingBlanks(s) <= i < LeadingBlanks(s) + |Strip(s)|
    ensures Strip(s)[i - LeadingBlanks(s)] == s[i]
  {
  }

  /** A digit is no blank. */
  lemma {:induction false} DigitIsNoSpace(c: char)
    requires IsDigit(c)
    ensures !IsSpace(c)
  {
  }

  /** Index of the first blank at or after `i`, or `|s|`. */
  function TokenEnd(s: string, i: nat): (j: nat)
    requires i <= |s|
    ensures i <= j <= |s|
    ensures NoSpace(s[i..j])
    ensures j == |s| || IsSpace(s[j])
    decreases |s| - i
  {
    if i == |s| || IsSpace(s[i]) then i
    else
      var j := TokenEnd(s, i + 1);
      assert s[i..j] == [s[i]] + s[i + 1..j];
      j
  }

  /** A token of `str.split()`: non-empty and blank-free. */
  predicate IsWord(w: string) {
    |w| > 0 && NoSpace(w)
  }

  /** Python's `s.split()` with no separator: the maximal blank-free runs, in order. */
  function Split(s: string): (r: seq<string>)
    ensures forall k | 0 <= k < |r| :: IsWord(r[k])
    decreases |s|
  {
    var t := TrimStart(s);
    if t == [] then []
    else
      var j := TokenEnd(t, 0);
      assert IsWord(t[..j]) by {
        assert !IsSpace(t[0]);
        assert t[..j] == t[0..j];
      }
      var r := [t[..j]] + Split(t[j..]);
      WordsCons(t[..j], Split(t[j..]));
      r
  }

  lemma {:induction false} WordsCons(w: string, ws: seq<string>)
    requires IsWord(w) && forall k | 0 <= k < |ws| :: IsWord(ws[k])
    ensures forall k | 0 <= k < |[w] + ws| :: IsWord(([w] + ws)[k])
  {
    forall k | 0 <= k < |[w] + ws|
      ensures IsWord(([w] + ws)[k])
    {
      if k > 0 {
        assert ([w] + ws)[k] == ws[k - 1];
      }
    }
  }

  /** A text with a non-blank character splits into its first word, then the split of
      what follows that word. */
  lemma {:induction false} SplitFirstWord(s: string)
    requires TrimStart(s) != []
    ensures var t := TrimStart(s);
      var j := TokenEnd(t, 0);
      && IsWord(t[..j])
      && Split(s) == [t[..j]] + Split(t[j..])
  {
    var t := TrimStart(s);
    var j := TokenEnd(t, 0);
    assert !IsSpace(t[0]);
    assert t[..j] == t[0..j];
  }

  function Concat(ss: seq<string>): string {
    if ss == [] then [] else ss[0] + Concat(ss[1..])
  }

  /** The characters of `s` that are not blanks, in order. */
  function RemoveSpaces(s: string): (r: string)
    ensures NoSpace(r)
  {
    if s == [] then []
    else (if IsSpace(s[0]) then [] else [s[0]]) + RemoveSpaces(s[1..])
  }

  lemma {:induction false} RemoveSpacesAppend(a: string, b: string)
    ensures RemoveSpaces(a + b) == RemoveSpaces(a) + RemoveSpaces(b)
    decreases |a|
  {
    if a != [] {
      assert (a + b)[1..] == a[1..] + b;
      RemoveSpacesAppend(a[1..], b);
    } else {
      assert a + b == b;
    }
  }

  lemma {:induction false} RemoveSpacesOfBlank(s: string)
    requires forall i | 0 <= i < |s| :: IsSpace(s[i])
    ensures RemoveSpaces(s) == []
    decreases |s|
  {
    if s != [] {
      RemoveSpacesOfBlank(s[1..]);
    }
  }

  lemma {:induction false} RemoveSpacesOfWord(s: string)
    requires NoSpace(s)
    ensures RemoveSpaces(s) == s
    decreases |s|
  {
    if s != [] {
      RemoveSpacesOfWord(s[1..]);
    }
  }

  lemma {:induction false} ConcatAppend(a: seq<string>, b: seq<string>)
    ensures Concat(a + b) == Concat(a) + Concat(b)
    decreases |a|
  {
    if a != [] {
      assert (a + b)[1..] == a[1..] + b;
      ConcatAppend(a[1..], b);
    } else {
      assert a + b == b;
    }
  }

  /** The tokens of `s.split()`, put back together, are exactly the non-blank characters of `s`. */
  lemma {:induction false} TrimStartKeepsNonBlanks(s: string)
    ensures RemoveSpaces(TrimStart(s)) == RemoveSpaces(s)
  {
    var t := TrimStart(s);
    var a := |s| - |t|;
    var blanks := s[..a];
    assert s == blanks + t;
    assert RemoveSpaces(blanks) == [] by {
      assert forall i | 0 <= i < |blanks| :: IsSpace(blanks[i]);
      RemoveSpacesOfBlank(blanks);
    }
    RemoveSpacesAppend(blanks, t);
  }

  lemma {:induction false} FirstTokenKeepsNonBlanks(t: string, j: nat)
    requires j <= |t| && NoSpace(t[..j])
    ensures RemoveSpaces(t) == t[..j] + RemoveSpaces(t[j..])
  {
    assert t == t[..j] + t[j..];
    RemoveSpacesAppend(t[..j], t[j..]);
    RemoveSpacesOfWord(t[..j]);
  }

  /** The tokens of `s.split()`, put back together, are exactly the non-blank characters of `s`. */
  lemma {:induction false} SplitKeepsEveryNonBlank(s: string)
    ensures Concat(Split(s)) == RemoveSpaces(s)
    decreases |s|
  {
    var t := TrimStart(s);
    assert RemoveSpaces(t) == RemoveSpaces(s) by {
      TrimStartKeepsNonBlanks(s);
    }
    if t != [] {
      var j := TokenEnd(t, 0);
      assert Split(s) == [t[..j]] + Split(t[j..]) by {
        SplitFirstWord(s);
      }
      assert RemoveSpaces(t) == t[..j] + RemoveSpaces(t[j..]) by {
        assert t[..j] == t[0..j];
        FirstTokenKeepsNonBlanks(t, j);
      }
      SplitKeepsEveryNonBlank(t[j..]);
      ConcatCons(t[..j], Split(t[j..]));
    }
  }

  lemma {:induction false} ConcatCons(w: string, ws: seq<string>)
    ensures Concat([w] + ws) == w + Concat(ws)
  {
    assert ([w] + ws)[1..] == ws;
  }

  lemma {:induction false} ConcatSnoc(ws: seq<string>, w: string)
    ensures Concat(ws + [w]) == Concat(ws) + w
  {
    ConcatAppend(ws, [w]);
    assert Concat([w]) == w by {
      assert [w][1..] == [];
    }
  }

  /** `s.split()` is empty exactly when `s` is all blanks. */
  lemma {:induction false} SplitEmptyIffBlank(s: string)
    ensures Split(s) == [] <==> forall i | 0 <= i < |s| :: IsSpace(s[i])
  {
    var t := TrimStart(s);
    if t != [] {
      assert !IsSpace(s[|s| - |t|]);
    }
  }

  /** A leading blank does not change the tokens. */
  lemma {:induction false} SplitBlankCons(c: char, s: string)
    requires IsSpace(c)
    ensures Split([c] + s) == Split(s)
  {
    assert ([c] + s)[1..] == s;
    assert TrimStart([c] + s) == TrimStart(s);
  }

  /** The blank-free run from `i` of `w + s` ends where `w` does, when `s` is empty or
      starts with a blank. */
  lemma {:induction false} TokenEndOfWord(w: string, s: string, i: nat)
    requires i <= |w| && NoSpace(w)
    requires s == [] || IsSpace(s[0])
    ensures TokenEnd(w + s, i) == |w|
    decreases |w| - i
  {
    if i < |w| {
      assert (w + s)[i] == w[i];
      TokenEndOfWord(w, s, i + 1);
    }
  }

  /** A word followed by nothing or a blank is the first token. */
  lemma {:induction false} SplitWordCons(w: string, s: string)
    requires IsWord(w)
    requires s == [] || IsSpace(s[0])
    ensures Split(w + s) == [w] + Split(s)
  {
    var t := w + s;
    assert TrimStart(t) == t by {
      assert t[0] == w[0];
    }
    TokenEndOfWord(w, s, 0);
    assert t[..|w|] == w;
    assert t[|w|..] == s;
  }

  /** A word is its own single token. */
  lemma {:induction false} SplitOfWord(w: string)
    requires IsWord(w)
    ensures Split(w) == [w]
  {
    SplitWordCons(w, []);
    assert w + [] == w;
  }

  lemma {:induction false} AppendAssoc<T>(x: seq<T>, y: seq<T>, z: seq<T>)
    ensures x + (y + z) == (x + y) + z
  {
  }

  lemma {:induction false} AppendThree(w: string, rest: string, c: char, b: string)
    ensures (w + rest) + [c] + b == w + (rest + [c] + b)
  {
  }

  /** A leading blank of `a` is dropped on both sides of `SplitAtBlank`. */
  lemma {:induction false} SplitAtBlankBlankStep(a: string, c: char, b: string)
    requires a != [] && IsSpace(a[0])
    ensures Split(a) == Split(a[1..])
    ensures Split(a + [c] + b) == Split(a[1..] + [c] + b)
  {
    assert a == [a[0]] + a[1..];
    SplitBlankCons(a[0], a[1..]);
    assert a + [c] + b == [a[0]] + (a[1..] + [c] + b) by {
      AppendThree([a[0]], a[1..], c, b);
    }
    SplitBlankCons(a[0], a[1..] + [c] + b);
  }

  /** The first word of `a` is the first token on both sides of `SplitAtBlank`. */
  lemma {:induction false} SplitAtBlankWordStep(a: string, c: char, b: string)
    requires a != [] && !IsSpace(a[0]) && IsSpace(c)
    ensures var j := TokenEnd(a, 0);
      && 0 < j
      && Split(a) == [a[..j]] + Split(a[j..])
      && Split(a + [c] + b) == [a[..j]] + Split(a[j..] + [c] + b)
  {
    var j := TokenEnd(a, 0);
    var w := a[..j];
    var rest := a[j..];
    assert IsWord(w) by {
      assert a[..j] == a[0..j];
      assert w[0] == a[0];
    }
    assert a == w + rest;
    SplitWordCons(w, rest);
    assert a + [c] + b == w + (rest + [c] + b) by {
      AppendThree(w, rest, c, b);
    }
    assert (rest + [c] + b)[0] == if rest == [] then c else rest[0];
    SplitWordCons(w, rest + [c] + b);
  }

  /** Splitting at any blank: the tokens of the text are those before it, then those
      after it. With `SplitOfWord`, this fixes `s.split()` on every text as the maximal
      blank-free runs. */
  lemma {:induction false} SplitAtBlank(a: string, c: char, b: string)
    requires IsSpace(c)
    ensures Split(a + [c] + b) == Split(a) + Split(b)
    decreases |a|
  {
    if a == [] {
      assert a + [c] + b == [c] + b;
      SplitBlankCons(c, b);
    } else if IsSpace(a[0]) {
      SplitAtBlankBlankStep(a, c, b);
      SplitAtBlank(a[1..], c, b);
    } else {
      SplitAtBlankWordStep(a, c, b);
      var j := TokenEnd(a, 0);
      SplitAtBlank(a[j..], c, b);
      AppendAssoc([a[..j]], Split(a[j..]), Split(b));
    }
  }

  /** Python's `sep.join(xs)`. */
  function Join(xs: seq<string>, sep: string): string {
    if |xs| == 0 then ""
    else if |xs| == 1 then xs[0]
    else xs[0] + sep + Join(xs[1..], sep)
  }

  function IndexOf(s: string, c: char): (i: nat)
    requires c in s
    ensures i < |s| && s[i] == c && c !in s[..i]
  {
    if s[0] == c then 0
    else
      var i := IndexOf(s[1..], c) + 1;
      assert s[..i] == [s[0]] + s[1..][..i - 1];
      i
  }

  /** Python's `s.split(c)` for a one-character separator. */
  function SplitOn(s: string, c: char): (r: seq<string>)
    ensures |r| >= 1
    ensures forall k | 0 <= k < |r| :: c !in r[k]
    decreases |s|
  {
    if c !in s then [s]
    else
      var i := IndexOf(s, c);
      [s[..i]] + SplitOn(s[i + 1..], c)
  }

  /** Splitting a join on its separator gives the pieces back, when no piece holds the separator. */
  lemma {:induction false} SplitOnJoin(xs: seq<string>, c: char)
    requires |xs| >= 1
    requires forall k | 0 <= k < |xs| :: c !in xs[k]
    ensures SplitOn(Join(xs, [c]), c) == xs
    decreases |xs|
  {
    if |xs| > 1 {
      var s := Join(xs, [c]);
      var rest := Join(xs[1..], [c]);
      assert s == xs[0] + [c] + rest;
      assert s[|xs[0]|] == c;
      assert s[..|xs[0]|] == xs[0];
      assert c in s;
      assert c !in s[..|xs[0]|];
      assert IndexOf(s, c) == |xs[0]|;
      assert s[|xs[0]| + 1..] == rest;
      SplitOnJoin(xs[1..], c);
    }
  }

  /** `[a[0], b[0], a[1], b[1], ...]`. */
  function Interleave(a: seq<string>, b: seq<string>): (r: seq<string>)
    requires |a| == |b|
    ensures |r| == 2 * |a|
    decreases |a|
  {
    if a == [] then [] else [a[0], b[0]] + Interleave(a[1..], b[1..])
  }

  lemma {:induction false} InterleaveAt(a: seq<string>, b: seq<string>, k: nat)
    requires |a| == |b| && k < |a|
    ensures Interleave(a, b)[2 * k] == a[k] && Interleave(a, b)[2 * k + 1] == b[k]
    decreases k
  {
    var rest := Interleave(a[1..], b[1..]);
    assert Interleave(a, b) == [a[0], b[0]] + rest;
    if k > 0 {
      InterleaveAt(a[1..], b[1..], k - 1);
      assert a[1..][k - 1] == a[k] && b[1..][k - 1] == b[k];
      assert Interleave(a, b)[2 * k] == rest[2 * (k - 1)];
      assert Interleave(a, b)[2 * k + 1] == rest[2 * (k - 1) + 1];
    }
  }

  /** Joining pieces that are each `a[i] + sep + b[i]` is joining the halves, interleaved. */
  lemma {:induction false} JoinHalves(a: seq<string>, b: seq<string>, xs: seq<string>, sep: string)
    requires |a| == |b| == |xs| >= 1
    requires forall i | 0 <= i < |xs| :: xs[i] == a[i] + sep + b[i]
    ensures Join(xs, sep) == Join(Interleave(a, b), sep)
    decreases |xs|
  {
    var ls := Interleave(a, b);
    var rest := Interleave(a[1..], b[1..]);
    assert ls == [a[0], b[0]] + rest;
    assert ls[1..][1..] == rest;
    if |xs| == 1 {
      assert Join(ls[1..], sep) == b[0];
    } else {
      assert forall i | 0 <= i < |xs| - 1 :: xs[1..][i] == xs[i + 1];
      JoinHalves(a[1..], b[1..], xs[1..], sep);
      assert Join(ls[1..], sep) == b[0] + sep + Join(rest, sep);
    }
  }
}

=== FILE: wrappers.dfy ===
/** Failure-carrying values shared by every module of the model: Python's
    `None` returns and raised exceptions are modelled as `None` / `Failure`. */
module Wrappers {

  datatype Option<+T> = None | Some(value: T) {

    function GetOr(default: T): T {
      match this
      case Some(v) => v
      case None => default
    }
  }

  datatype Result<+R, +E> = Success(value: R) | Failure(error: E)
}
